=== FILE: README.md ===
# Template Explorer backend — a Dafny model

Template Explorer lets an analyst bind datasets to a Jinja template, render the template
per record, send the prompt to a language model, and parse the answer. It does this for
one record at a time or as a background batch job over a whole dataset. This project
models the pure core of its FastAPI backend (`backend/main.py`) and proves properties of
that model:

- **File keys.** Stored templates and datasets are named `{id}__{name}{suffix}`.
  - They are found by the prefix `{id}__` of their stem.
  - They are listed by splitting the stem at its first `__`.
  - User-chosen names are rejected when they hold a slash or backslash.
  - Module `FileKeys` holds the naming scheme, `Storage` the lookup and dataset loading,
    and `Catalog` the listings and the create/update endpoints.
- **Context building** (module `Context`). The data-source bindings of a run are resolved
  in order into the map the template is rendered against.
  - A global binding reads one row of its dataset.
  - A record binding reads the record being run, or the first record of its own dataset
    when no truthy record is given.
  - The value of the previous binding is carried, as the Python local `context_value` is.
- **Parser dispatch** (module `Parsing`). A request chooses among the raw, structured
  (pydantic) and custom-python parsers, with the error wrapping of
  `create_model_from_string` and `execute_custom_python`.
  - The final `.model_dump()` is partial: only a pydantic instance has it.
- **A run** (module `Runner`). `execute_llm_run` chooses the template source, builds the
  context, renders it, calls the model, parses and packages. The first failing step
  decides the error.
- **Batch jobs and job queries** (modules `Batch` and `Jobs`).
  - `batch_process_task` runs the request once per record of the first record-scoped
    binding's dataset.
  - Progress is kept in the job record and per-record failures are isolated.
  - The status, result and save endpoints guard what a job exposes.

Everything the backend calls but does not define is a field of one `Externals` value of
function type, passed as a parameter (module `Collaborators`). The model is therefore
deterministic in that value. These collaborators are:

- the JSON decoder;
- the Jinja2 renderer;
- the language model's `complete` and `structured_predict`;
- Python's `exec` of user code, and the call of the user's `parse`.

A raised exception is an `Err` value. `Errors.Message` gives the text `str(e)` produces
for each exception, because the batch orchestrator stores exactly that text.

## Behaviour of the code worth knowing

These are consequences of the code as written, proved as lemmas:

- **Raw runs always fail.** The raw parser yields the response text itself. Line 410 then
  calls `.model_dump()` on that `str` and raises `AttributeError`. A raw run therefore
  never succeeds (`Parsing.RawNeverPackages`, `Runner.RawRunFailsAtPackaging`), and in a
  batch every record of a raw job is an error entry (`Batch.RawBatchEntriesAllErrored`).
  A python parser whose `parse` returns a plain value (a string, a list, a dict) fails the
  same way. Only a run whose parsed object is a pydantic model instance can succeed: a
  structured run, or a python run whose `parse` returns such an instance
  (`Parsing.Package`, `Runner.RunInContext`).
- **Falsy records fall back.** A falsy batch record (`{}`, `""`, `0`, `null`) fails
  `if record:`. The run then reads the first record of each record binding's dataset
  instead (`Runner.FalsyRecordRunsAsSingle`, `Batch.FalsyRecordEntry`).
- **Empty datasets reuse the previous value.** A record binding over an empty dataset,
  run without a record, reuses the previous binding's value
  (`Context.EmptyFallbackReusesPrevious`). As the first binding it raises
  `UnboundLocalError` (`Context.FirstEmptyRecordBindingUnbound`).
- **The collision scans can crash.** They index `split('__', 1)[1]`, so any file in the
  directory whose stem has no `__` makes them crash with `IndexError` when the scan
  reaches it before any file with the same name; a same-name file reached first gives
  the 409 instead (`Catalog.NameClash`, `Catalog.NameClashIsFirstDecider`).
- **The prefix lookup is not exact.** A file `a__b__c.json` is found under the id `a` and
  under the id `a__b` (`Storage.PrefixLookupIsNotExact`). Lookups by a generated id
  (a UUID, which has no underscore) are exact (`Storage.FindWrittenFile`,
  `Catalog.UpdateKeepsTemplateReachable`).
- **`.txt` uploads are accepted.** The upload endpoint accepts them (main.py:176-178)
  even though its error message names only `.json` and `.jsonl`.
- **An empty parser payload means raw.** Each parser branch tests its type and its
  payload together (main.py:387 and 400). A `structured` parser without model code, or a
  `python` parser without code, therefore runs the raw branch, and that branch then fails
  at `.model_dump()` (`Parsing.SelectStrategy`).
- **Rendering uses Jinja's defaults.** The template is rendered by a plain
  `jinja2.Environment()` (main.py:379-381), under which an undefined name renders as
  empty text. Rendering is a collaborator here, and the model claims nothing about it.
- **Only completed jobs expose results.** The result and save endpoints both refuse any
  job whose status is not `completed` (main.py:505-506 and 514-515). A `failed` job is
  refused as "not yet complete" (`Batch.FailedJobIsRefused`).
- **A missing template fails each record.** The template is read inside
  `execute_llm_run` (main.py:341-347), which the batch task calls once per record inside
  its own `try` (main.py:470-475). A template id that names no stored template makes every
  record an error entry, and the job still completes
  (`Batch.MissingTemplateFailsEachRecord`).

## Model

| member | source | states |
|---|---|---|
| `FileKeys.SplitStem` | backend/main.py:142 | `split('__', 1)` fails exactly when the stem holds no `__`. Otherwise the stem is id + `__` + name, with no separator inside the id. |
| `FileKeys.SplitBuiltStem` | backend/main.py:142 | A stem written as id + `__` + name, with an underscore-free id, splits back into exactly that id and name, even when the name holds `__`. |
| `FileKeys.Suffix` | backend/main.py:140 | `Path.suffix` is empty, or one dot followed by at least one character and no further dot. It is empty exactly when the name is empty, ends in a dot, or has no dot after its first character. |
| `FileKeys.LastDotIsInner` | backend/main.py:140 | The last dot of a name lies strictly inside it exactly when the name does not end in a dot and has a dot after its first character. |
| `FileKeys.Stem` | backend/main.py:142 | `Path.stem` followed by `Path.suffix` gives back the whole file name. |
| `FileKeys.StemSuffixOfFileName` | backend/main.py:186 | A name written as base + `.` + extension reads back with that base as stem and `.` + extension as suffix. |
| `FileKeys.KeyOfFileName` | backend/main.py:120 | A stored file name `{id}__{name}.{ext}` has stem `{id}__{name}` and suffix `.{ext}`. |
| `FileKeys.PathName` | backend/main.py:172-176 | `PurePosixPath(filename).name` contains no `/`, and a non-empty slash-free path other than `.` is its own name. |
| `FileKeys.PathNameIsLastNamedComponent` | backend/main.py:172-176 | The name of a path is the last of its `/`-separated components that is neither empty nor `.` (empty when there is none), so trailing slashes and `.` components are skipped. |
| `FileKeys.UploadStemHasNoForwardSlash` | backend/main.py:172-174 | The uploaded dataset's name never holds `/`, so only a backslash can trip its slash check. |
| `FileKeys.LStripDots` | backend/main.py:158 | `lstrip('.')` removes exactly a leading run of dots: the result is a suffix of the input, does not start with a dot, and only dots were removed. |
| `Storage.FindIndex` | backend/main.py:198-203 | The lookup returns the first file, in iteration order, whose stem starts with `{id}__`, and returns nothing exactly when no file matches. |
| `Storage.FindFile` | backend/main.py:268-273 | The template lookup finds an entry of the directory carrying the id prefix, and nothing exactly when no entry carries it. |
| `Storage.FindFileIsFirstMatch` | backend/main.py:198-203 | A matching entry with no matching entry before it is exactly the entry the lookup returns: the lookup answers the first match in iteration order. |
| `Storage.FindWrittenFile` | backend/main.py:198-203 | When no entry of the directory already matches an id, a file appended under that id, with a one-dot extension, is the one the lookup returns for it. A generated id (a UUID) is the intended case. |
| `Storage.PrefixLookupIsNotExact` | backend/main.py:201 | The prefix test matches `a__b__c.json` both for id `a` and for id `a__b`. |
| `Storage.JsonRecords` | backend/main.py:212-218 | A decoded `.json` list is the records as is, an object is one record, and any other value gives no records. |
| `Storage.LoadDataset` | backend/main.py:205-226 | The suffix picks the reader. Exactly the suffixes other than `.jsonl`, `.json` and `.txt` give 400. A `.txt` file is one string record. A `.json` or `.jsonl` file loads exactly when it decodes, else 500. |
| `Storage.GetDatasetRecord` | backend/main.py:241-251 | An unknown dataset gives 404. For a loaded dataset a record is served exactly when 0 <= index < count, and it is the record at that index. |
| `Catalog.ListTemplates` | backend/main.py:135-147 | The template listing has at most one row per directory entry. |
| `Catalog.ListTemplatesExact` | backend/main.py:139-146 | A row is listed exactly when some `.jinja` file's stem splits into it. Files without `__` are skipped, not fatal. |
| `Catalog.ListTemplatesWellFormed` | backend/main.py:139-146 | A row (id, name) is listed exactly when some entry is a file with suffix `.jinja` whose stem splits into that id and name. Directories, other suffixes and stems without `__` are skipped. |
| `Catalog.ListTemplatesAppend` | backend/main.py:139-147 | The listing keeps the order of the entries it visits: listing two runs of entries is listing each in turn. |
| `Catalog.ListedAfterCreate` | backend/main.py:139-146 | Adding a template file written by the create endpoint adds exactly the row (id, name) it was created with, and no other row. Its position after the old rows is an artefact of the unsorted listing. |
| `Catalog.ListDatasets` | backend/main.py:150-163 | The dataset listing has at most one row per entry, and every listed format is `json`, `jsonl` or `txt`. |
| `Catalog.ListDatasetsAppend` | backend/main.py:154-163 | The dataset listing keeps the order of the entries it visits: listing two runs of entries is listing each in turn. |
| `Catalog.ListDatasetsFromRows` | backend/main.py:154-162 | A dataset row is listed exactly when some directory entry yields it. |
| `Catalog.DatasetRowExact` | backend/main.py:155-159 | An entry yields a row exactly when it is a file with suffix `.json`, `.jsonl` or `.txt` whose stem splits into the row's id and name, and the row's format is the suffix without its dot. |
| `Catalog.ListDatasetsExact` | backend/main.py:154-162 | A dataset row is listed exactly when some entry is a file with an accepted suffix whose stem splits into the row's id and name and whose suffix, without its dot, is the row's format. Directories, other suffixes and stems without `__` are skipped. |
| `Catalog.ListedAfterUpload` | backend/main.py:154-159 | A dataset file written by the upload endpoint under a fresh underscore-free id adds exactly the metadata the upload answered (id, name, format), and no other row. Its position after the old rows is an artefact of the unsorted listing. |
| `FileKeys.LStripOneDot` | backend/main.py:158 | `lstrip('.')` of a string with one leading dot drops exactly that dot. |
| `Catalog.DatasetSuffixShape` | backend/main.py:176-178 | An accepted dataset suffix is a dot followed by `json`, `jsonl` or `txt`. |
| `Catalog.FormatOfDatasetSuffix` | backend/main.py:158 | For an accepted suffix, `lstrip('.')` drops exactly the leading dot. |
| `Catalog.NameClash` | backend/main.py:123-125 | The collision scan passes exactly when no file decides it. When one does, the answer is either the IndexError crash (a stem without `__` exists) or 409 naming the clashing name (a file with that display name exists). |
| `Catalog.NameClashIsFirstDecider` | backend/main.py:123-125 | The scan answers for the first deciding file in iteration order: the IndexError crash when its stem has no `__`, and otherwise the 409 naming the clashing name. |
| `Catalog.CreateTemplate` | backend/main.py:111-133 | A name with a slash gives 400. Creation succeeds exactly when the name has no slash and the scan passes. A clash found by the scan is the error returned. On success it adds exactly one file `{id}__{name}.jinja` with the content and answers (id, name). |
| `Catalog.CreatedTemplateNameIsOneComponent` | backend/main.py:116-120 | A created template's file name holds no slash, so it stays inside the templates directory. |
| `Catalog.CreateDataset` | backend/main.py:165-195 | An empty file name gives 400. A stem with a slash gives the slash 400, and otherwise a suffix other than `.json`, `.jsonl`, `.txt` gives the suffix 400. The upload succeeds exactly when the file name is given, the stem has no slash, the suffix is accepted and the scan passes. A clash found by the scan is the error returned. On success it adds exactly one file `{id}__{name}{suffix}`, reported with the suffix's format. |
| `Catalog.StoreDataset` | backend/main.py:172-195 | The same checks on a given stem and suffix, in the code's order (slash, then suffix, then collision), with success exactly when all three pass and the scan's clash as the collision error. |
| `Catalog.UpdateTemplate` | backend/main.py:290-324 | An unknown id gives 404. A found file's stem always holds `__`, so reading its current display name cannot fail, and the outcome is that of the rename step on the found entry and its current display name. On success only the found entry changes, its content is the new content or the old one, and its file keeps its name or is renamed to `{id}__{new name}.jinja`. |
| `Catalog.RewriteFound` | backend/main.py:298-324 | The effective name is the new name or the current one. A slash in it gives 400. A rename happens exactly when a new name is given and differs from the current one, and only a rename runs the collision scan. The update succeeds exactly when the effective name has no slash and, on a rename, the scan passes. It answers the effective name and the new or old content, renames the file to `{id}__{name}.jinja` on a rename, and otherwise keeps the file name. |
| `Catalog.MatchedStemSplits` | backend/main.py:270-272 | For any id, a file the lookup matches has a stem that splits at `__`, so `split('__', 1)[1]` on a found template cannot fail. |
| `Catalog.FoundStemSplits` | backend/main.py:297 | The stem of a template found by an underscore-free id splits into that id and the rest. |
| `Catalog.RewriteKeepsMatch` | backend/main.py:304-312 | Keeping the found file's name, or renaming it under the same id, keeps it the first match for that id and keeps its display name. |
| `Catalog.TemplateKeyMatches` | backend/main.py:310 | A renamed template file matches its id's prefix and splits back into that id and the new name. |
| `Catalog.UpdateKeepsTemplateReachable` | backend/main.py:290-324 | After a successful update the template is still found under its id, and its file name carries the returned name. It is found at the same position of the entry sequence; that position is a model artefact, since the program's directory order is the file system's. |
| `Context.ResolveGlobal` | backend/main.py:358-363 | A global binding reads row `row or 0`. It succeeds exactly when that row lies in [0, count), negatives excluded, and fails otherwise with the invalid-row error. |
| `Context.ResolveValue` | backend/main.py:351-371 | A binding whose dataset is missing fails with that id. A record binding with a truthy record yields the record itself, whatever its dataset. |
| `Context.Merge` | backend/main.py:373-376 | An empty key with a dict spreads the dict's fields over the context, and the new fields win. Any other key or value is stored under the key. All other entries are kept. |
| `Context.Fold` | backend/main.py:350-376 | The binding loop only adds keys. If it succeeds, every binding's dataset exists, and after at least one binding a value is carried. |
| `Context.FoldSnoc` | backend/main.py:351-376 | The loop over the bindings plus one more is the loop followed by one more step: bindings are processed strictly in order. |
| `Context.LastBindingWins` | backend/main.py:373-376 | Whatever the last binding resolves to is what the final context shows, under its key or spread at the top level. |
| `Context.MissingDatasetFails` | backend/main.py:352-354 | A binding to a missing dataset fails the context with that dataset's id. |
| `Context.FoldIgnoresFalsyRecord` | backend/main.py:365-371 | An absent record and a falsy record (`{}`, `""`, `0`, null) give the same context. |
| `Context.FoldIgnoresRecordWhenAllGlobal` | backend/main.py:358-363 | With only global bindings the supplied record has no effect on the context. |
| `Context.GlobalAgreesWithRecordLookup` | backend/main.py:358-363 | A global binding reads exactly the record the single-record endpoint serves at that row, and fails exactly when that endpoint fails. Both use the same half-open bound. |
| `Context.RecordFallbackIsFirstRecord` | backend/main.py:367-371 | Without a truthy record, a record binding reads its own dataset's record 0. |
| `Context.EmptyFallbackReusesPrevious` | backend/main.py:369-376 | Without a truthy record and over an empty dataset, a record binding binds the previous binding's value again. |
| `Context.FirstEmptyRecordBindingUnbound` | backend/main.py:369-371 | The same situation on the first binding fails with the unbound-local error. |
| `Parsing.SelectStrategy` | backend/main.py:385-408 | Structured is chosen exactly when the type is structured and the model code is non-empty. Python is chosen exactly when the type is python and the code is non-empty. Otherwise raw. |
| `Parsing.StrategyIgnoresForeignPayload` | backend/main.py:385-400 | Each parser type looks only at its own payload, and a missing parser spec behaves as the default raw one. |
| `Parsing.FirstModelClass` | backend/main.py:420-422 | The chosen class is the first eligible one in definition order: a BaseModel subclass other than BaseModel, under a name without a leading underscore. |
| `Parsing.CreateModelFromString` | backend/main.py:412-424 | Code that raises gives the invalid-definition error with the cause. Code that runs succeeds exactly when it defines an eligible class, and the class returned is the first eligible one; otherwise it fails with the no-model-class error. |
| `Parsing.Lookup` | backend/main.py:434 | `local_scope.get` finds nothing exactly when no local has the name, and otherwise a binding of that name. |
| `Parsing.ExecuteCustomPython` | backend/main.py:426-441 | Code that raises gives the invalid-code error. The missing-`parse` error arises exactly when the code runs but defines no callable `parse`. When a callable `parse` exists, its return value is the result, and what it raises is wrapped as the parse-function error. |
| `Parsing.InvokeAndParse` | backend/main.py:387-408 | Raw succeeds exactly when the model answers, with that answer as both raw text and parsed value. Structured succeeds exactly when the model class is created and the model returns an instance of it; the raw text is that instance's `str`, and every failure is a structured-parsing error. Python succeeds exactly when the model answers and the user code parses that answer; a failing `complete` is passed on as the completion error, a failing parse is a custom-parsing error. A failing `predict` on the structured path is a structured-parsing error wrapping the prediction error. |
| `Parsing.WrappedFailuresArePrefixed` | backend/main.py:396-405 | Structured failures read "Pydantic model parsing failed: …" and custom-code failures read "Custom Python parsing failed: …". |
| `Parsing.MissingParseFunction` | backend/main.py:434-436 | Code without a `parse` fails the python branch with the exact missing-function message under the custom prefix. |
| `Parsing.Package` | backend/main.py:410 | Packaging succeeds exactly for a pydantic instance, and then dumps its fields. Any other value gives the AttributeError naming its type. |
| `Parsing.RawNeverPackages` | backend/main.py:406-410 | The raw branch's parsed value, a `str`, fails packaging. |
| `Runner.TemplateSource` | backend/main.py:341-347 | A non-empty template id wins and succeeds exactly when it names a stored template, whose text it reads. Otherwise the inline text is used, defaulting to "". |
| `Runner.ExecuteRun` | backend/main.py:339-410 | A missing template is reported before any binding error, and a binding error before anything later. Once both succeed the run is the render-to-package step on that template and context, and the run succeeds exactly when all three steps do. A successful run is never raw, has a model config, and yields a dict. |
| `Runner.RunInContext` | backend/main.py:379-410 | A rendering error comes first, then a missing model config, then the dispatch's error. It succeeds exactly when rendering and dispatch succeed with a model config and the parsed object is a model instance. The output is the raw text and the instance's fields. |
| `Runner.FalsyRecordRunsAsSingle` | backend/main.py:364-371 | A run over a falsy record is the same as the run with no record. |
| `Runner.GlobalOnlyRunIgnoresRecord` | backend/main.py:358-363 | With only global bindings a run's outcome does not depend on the record. |
| `Runner.RawRunFailsAtPackaging` | backend/main.py:406-410 | A raw run that renders and gets an answer fails with the AttributeError of `.model_dump()` on a `str`. |
| `Jobs.GetJobStatus` | backend/main.py:493-498 | An unknown job gives 404. Otherwise the answer is the job's status, progress, total and error. |
| `Jobs.GetJobResult` | backend/main.py:500-507 | Results are served exactly for a known, completed job, and are its results. Otherwise the answer is 404 for an unknown job and 400 for an unfinished one. |
| `Jobs.SaveJobResults` | backend/main.py:509-529 | Saving succeeds exactly for a known, completed job, a filename without slashes and a `.jsonl` target that does not exist. It writes the job's results to `results/{filename}.jsonl`. An unknown job gives 404, an unfinished one 400, a slash in the filename 400, and an existing target 409. |
| `Jobs.SaveAgreesWithResult` | backend/main.py:509-515 | Saving writes exactly what the result endpoint serves, and is refused with the same error whenever that endpoint refuses. |
| `Jobs.SavedFileStaysInResultsDir` | backend/main.py:517-521 | A saved file's name is one path component. |
| `Batch.FirstRecordBinding` | backend/main.py:458 | The chosen binding is the first record-scoped one, and there is none exactly when every binding is global. |
| `Batch.RecordsToProcess` | backend/main.py:458-468 | Pre-flight fails with the no-record-binding error exactly when no binding is record-scoped. Otherwise a missing dataset gives the not-found error with its id, an unloadable one gives that load error, and a loadable one gives its records. |
| `Batch.EntryFor` | backend/main.py:471-475 | Each entry carries its input record. It is a success exactly when the run on that record succeeds, and its raw text and parsed value are then the run's output; otherwise it holds the run's error text. |
| `Batch.ProcessRecords` | backend/main.py:470-478 | The loop yields one result per record, in index order. After record k a poll sees progress k+1 and the first k+1 results. |
| `Batch.CompleteRecords` | backend/main.py:470-480 | After the loop the job is completed and consistent, with one result per record in index order. Every progress snapshot is running and consistent and shows a prefix of the final results. |
| `Batch.BatchProcess` | backend/main.py:453-484 | A failed pre-flight ends the job failed with its message, progress 0, total 0 and no results. Otherwise the job completes with total = progress = number of results = number of records, and result k is record k's entry. |
| `Batch.BatchProcessTask` | backend/main.py:453-484 | Only the task's own job changes. It ends terminal and consistent, and its results are served exactly when pre-flight succeeded. After a successful pre-flight the job is completed with one entry per record, each the entry for that record. After a failed pre-flight it is `failed` with no counts, no results and the pre-flight error's message. |
| `Batch.RawBatchEntriesAllErrored` | backend/main.py:471-475 | Under the raw parser every entry is an error entry. |
| `Batch.FalsyRecordEntry` | backend/main.py:470-472 | The entry for a falsy record is computed from the run with no record. |
| `Batch.MissingTemplateFailsEachRecord` | backend/main.py:470-475 | A missing template fails every record with "Template not found" rather than failing the job. |
| `Batch.FailedJobIsRefused` | backend/main.py:500-515 | A failed job is refused by both the result and the save endpoints as not complete. |

## Left out

- HTTP layer: routing, request validation and response-model coercion are not modelled. Endpoints return `Result` values carrying the status code and detail of each `HTTPException`.
- `read_root`, `get_template`, `get_dataset`, `delete_dataset` and `delete_template` are not modelled. They are thin wrappers over the lookup and the loader, which are modelled.
- `run_llm` is not modelled. It catches only `ValueError` and `HTTPException` from the run (main.py:449) and answers them as an `error` string. Every other exception the run raises escapes and reaches the client as a 500: the `AttributeError` of `.model_dump()`, the `UnboundLocalError` of an unbound `context_value`, and errors raised by Jinja or by the model client. The model does not classify run errors by Python exception type, so it cannot say which of its `RunError` values `run_llm` would answer and which would escape.
- Python dict insertion order is not modelled. A context, a record and a dumped model are maps, so the order in which Jinja iterates a dict, the key order of `model_dump()` and the key order `json.dump` writes are not represented, and no property here depends on them.
- `run_batch` is not modelled. It draws a `uuid4` and schedules the task, so `Batch.BatchProcessTask` takes the job id as a parameter.
- File I/O: a directory is the sequence of its entries in iteration order, and a file is its name, kind and text. Writes, renames and unlinks are modelled as changes to that sequence.
- The `IOError` branches that answer 500 after a failed write, read, rename or unlink are not modelled.
- `Catalog.ListTemplates`: `sorted(...)` is not modelled; the listing takes the entries in the order it visits them, so the caller supplies them sorted. The existential membership statement is in `Catalog.ListTemplatesExact`.
- `Catalog.ListDatasets`: the same ordering caveat applies.
- JSON decoding, Jinja2 rendering, the OpenAI model (`complete`, `structured_predict`), `exec` of user code and the call of the user's `parse` are external. They are function parameters that may fail.
- Python values that are not JSON-like (floats, user objects) are not modelled. Parsed values are either a pydantic instance or a JSON-like value.
- The job's stored entries are a datatype. Their `json.dumps` serialisation when saving is not modelled.
- `LLMConfig.temperature` and the float type of `JobStatus.progress` are not modelled.
- Concurrency of background tasks, `time.sleep`, `uuid4` and `load_dotenv` are not modelled. The batch task is a sequential method whose intermediate job states are returned as snapshots.
- `FileKeys.PathName` follows POSIX path rules. On Windows a backslash also separates components, which is not modelled.
- `Context.ResolveValue` states the missing-dataset and truthy-record cases in its contract. The global, fallback and unbound cases are stated by `Context.GlobalAgreesWithRecordLookup`, `Context.RecordFallbackIsFirstRecord`, `Context.EmptyFallbackReusesPrevious` and `Context.FirstEmptyRecordBindingUnbound`.

=== FILE: batch.dfy ===
/** `batch_process_task`: the background job that runs the request once per record of
    the first record-scoped binding's dataset, keeping progress and per-record results in
    the job store. */
module Batch {
  import opened Outcomes
  import opened Values
  import opened Errors
  import opened Collaborators
  import opened Storage
  import opened Context
  import opened Parsing
  import opened Runner
  import opened Jobs

  /** Failures before the per-record loop; each makes the job `failed`. */
  datatype BatchError =
    | NoRecordBinding
    | RecordDatasetMissing(id: string)
    | RecordDatasetUnloadable(http: HttpError)

  function BatchMessage(e: BatchError): string {
    match e
    case NoRecordBinding => "Batch run requires at least one 'record' scoped dataset."
    case RecordDatasetMissing(id) => "Record-scoped dataset " + id + " not found."
    case RecordDatasetUnloadable(h) => HttpText(h)
  }

  /** Position of the first record-scoped binding at or after `i`. */
  function FirstRecordFrom(bs: seq<Binding>, i: nat): (r: Option<nat>)
    requires i <= |bs|
    ensures r.Some? ==> i <= r.value < |bs| && bs[r.value].scope == RecordScope
    ensures r.Some? ==> forall j :: i <= j < r.value ==> bs[j].scope == GlobalScope
    ensures r.None? ==> forall j :: i <= j < |bs| ==> bs[j].scope == GlobalScope
    decreases |bs| - i
  {
    if i == |bs| then None
    else if bs[i].scope == RecordScope then Some(i)
    else
      assert bs[i].scope == GlobalScope;
      FirstRecordFrom(bs, i + 1)
  }

  /** `next((b for b in bindings if b.scope == 'record'), None)`. */
  function FirstRecordBinding(bs: seq<Binding>): (r: Option<Binding>)
    ensures r.None? <==> forall i :: 0 <= i < |bs| ==> bs[i].scope == GlobalScope
    ensures r.Some? ==> exists i :: 0 <= i < |bs| && bs[i] == r.value && r.value.scope == RecordScope
                                  && forall j :: 0 <= j < i ==> bs[j].scope == GlobalScope
  {
    match FirstRecordFrom(bs, 0)
    case None => None
    case Some(i) =>
      assert bs[i].scope == RecordScope && forall j :: 0 <= j < i ==> bs[j].scope == GlobalScope;
      Some(bs[i])
  }

  /** The pre-flight: the records the loop will visit, read once from the dataset of the
      first record-scoped binding. */
  function RecordsToProcess(req: RunRequest, files: Files, ext: Externals): (r: Result<seq<Value>, BatchError>)
    ensures r == Err(NoRecordBinding) <==> FirstRecordBinding(req.bindings).None?
    ensures r.Ok? ==> && FirstRecordBinding(req.bindings).Some?
                      && FindFile(files.datasets, FirstRecordBinding(req.bindings).value.sourceId).Some?
                      && LoadDataset(FindFile(files.datasets, FirstRecordBinding(req.bindings).value.sourceId).value, ext) == Ok(r.value)
    ensures FirstRecordBinding(req.bindings).Some? ==>
              var b := FirstRecordBinding(req.bindings).value;
              && (FindFile(files.datasets, b.sourceId).None? ==> r == Err(RecordDatasetMissing(b.sourceId)))
              && (FindFile(files.datasets, b.sourceId).Some? ==>
                    var loaded := LoadDataset(FindFile(files.datasets, b.sourceId).value, ext);
                    && (loaded.Err? ==> r == Err(RecordDatasetUnloadable(loaded.error)))
                    && (loaded.Ok? ==> r == Ok(loaded.value)))
  {
    match FirstRecordBinding(req.bindings)
    case None => Err(NoRecordBinding)
    case Some(b) =>
      match FindFile(files.datasets, b.sourceId)
      case None => Err(RecordDatasetMissing(b.sourceId))
      case Some(f) =>
        match LoadDataset(f, ext)
        case Err(e) => Err(RecordDatasetUnloadable(e))
        case Ok(data) => Ok(data)
  }

  /** The entry appended for one record: the run's output, or the text of what it raised,
      next to the record itself. */
  function EntryFor(req: RunRequest, files: Files, ext: Externals, record: Value): (e: Entry)
    ensures e.input == record
    ensures e.Succeeded? <==> ExecuteRun(req, Some(record), files, ext).Ok?
    ensures e.Errored? ==> e.message == Message(ExecuteRun(req, Some(record), files, ext).error)
    ensures e.Succeeded? ==> e.parsed.VDict?
    ensures e.Succeeded? ==> ExecuteRun(req, Some(record), files, ext) == Ok(RunOutput(e.raw, e.parsed))
  {
    match ExecuteRun(req, Some(record), files, ext)
    case Ok(out) => Succeeded(record, out.raw, out.parsed)
    case Err(err) => Errored(record, Message(err))
  }

  const InitialJob: Job := Job(Running, 0, 0, [], None)

  /** The per-record loop: `step` runs one record; after each record the job's progress
      is bumped, which is what a status poll observes. */
  method ProcessRecords(records: seq<Value>, step: Value -> Entry) returns (results: seq<Entry>, polls: seq<Job>)
    ensures |results| == |records| && |polls| == |records|
    ensures forall k :: 0 <= k < |records| ==> results[k] == step(records[k])
    ensures forall k :: 0 <= k < |polls| ==> polls[k] == Job(Running, k + 1, |records|, results[..k + 1], None)
  {
    results := [];
    polls := [];
    var i := 0;
    while i < |records|
      invariant 0 <= i <= |records|
      invariant |results| == i && |polls| == i
      invariant forall k :: 0 <= k < i ==> results[k] == step(records[k])
      invariant forall k :: 0 <= k < i ==> polls[k] == Job(Running, k + 1, |records|, results[..k + 1], None)
    {
      var before := results;
      results := results + [step(records[i])];
      assert forall k :: 0 <= k < i ==> polls[k].results == results[..k + 1] by {
        forall k | 0 <= k < i
          ensures polls[k].results == results[..k + 1]
        {
          assert results[..k + 1] == before[..k + 1];
        }
      }
      polls := polls + [Job(Running, i + 1, |records|, results, None)];
      assert results[..i + 1] == results;
      i := i + 1;
    }
  }

  /** The loop and the final update: every record processed, the job completed. */
  method CompleteRecords(records: seq<Value>, step: Value -> Entry) returns (job: Job, polls: seq<Job>)
    ensures Consistent(job) && job.status == Completed
    ensures job.total == |records| && job.progress == |records| && |job.results| == |records|
    ensures forall k :: 0 <= k < |records| ==> job.results[k] == step(records[k])
    ensures |polls| == |records|
    ensures forall k :: 0 <= k < |polls| ==>
              && polls[k].status == Running
              && polls[k].progress == k + 1
              && polls[k].total == job.total
              && polls[k].results == job.results[..k + 1]
              && Consistent(polls[k])
  {
    var results;
    results, polls := ProcessRecords(records, step);
    job := Job(Completed, |records|, |records|, results, None);
  }

  /** The task's effect on its job: the final job record, and the snapshots a status poll
      can observe after each record's progress update. */
  method BatchProcess(req: RunRequest, files: Files, ext: Externals) returns (job: Job, polls: seq<Job>)
    ensures Consistent(job) && job.status != Running
    ensures RecordsToProcess(req, files, ext).Err? ==>
              && job == Job(Failed, 0, 0, [], Some(BatchMessage(RecordsToProcess(req, files, ext).error)))
              && polls == []
    ensures RecordsToProcess(req, files, ext).Ok? ==>
              var records := RecordsToProcess(req, files, ext).value;
              && job.status == Completed
              && job.total == |records| && job.progress == |records| && |job.results| == |records|
              && (forall k :: 0 <= k < |records| ==> job.results[k] == EntryFor(req, files, ext, records[k]))
              && |polls| == |records|
    ensures forall k :: 0 <= k < |polls| ==>
              && polls[k].status == Running
              && polls[k].progress == k + 1
              && polls[k].total == job.total
              && polls[k].results == job.results[..k + 1]
              && Consistent(polls[k])
  {
    var pre := RecordsToProcess(req, files, ext);
    if pre.Err? {
      job := InitialJob.(status := Failed, error := Some(BatchMessage(pre.error)));
      polls := [];
      return;
    }
    job, polls := CompleteRecords(pre.value, record => EntryFor(req, files, ext, record));
  }

  /** `batch_process_task` on the job store: only the task's own job changes, and it ends
      terminal and consistent. */
  method BatchProcessTask(store: JobStore, jobId: string, req: RunRequest, files: Files, ext: Externals) returns (store': JobStore)
    ensures store'.Keys == store.Keys + {jobId}
    ensures forall id :: id in store && id != jobId ==> store'[id] == store[id]
    ensures store'[jobId].status != Running && Consistent(store'[jobId])
    ensures GetJobResult(store', jobId).Ok? <==> RecordsToProcess(req, files, ext).Ok?
    ensures RecordsToProcess(req, files, ext).Ok? ==>
              |GetJobResult(store', jobId).value| == |RecordsToProcess(req, files, ext).value|
    ensures RecordsToProcess(req, files, ext).Ok? ==>
              var records := RecordsToProcess(req, files, ext).value;
              && store'[jobId].status == Completed
              && |store'[jobId].results| == |records|
              && forall k :: 0 <= k < |records| ==> store'[jobId].results[k] == EntryFor(req, files, ext, records[k])
    ensures RecordsToProcess(req, files, ext).Err? ==>
              store'[jobId] == Job(Failed, 0, 0, [], Some(BatchMessage(RecordsToProcess(req, files, ext).error)))
  {
    var job, _ := BatchProcess(req, files, ext);
    store' := store[jobId := job];
  }

  /** With the raw parser no record can succeed: every entry carries the attribute error
      of `.model_dump()` or an earlier failure. */
  lemma RawBatchEntriesAllErrored(req: RunRequest, files: Files, ext: Externals, record: Value)
    requires SelectStrategy(req.parser).RawText?
    ensures EntryFor(req, files, ext, record).Errored?
  {
  }

  /** A falsy record in the dataset (`{}`, `""`, `0`, `null`) is not what its run sees:
      its entry is computed as the single run with no record, from each record binding's
      first row. */
  lemma FalsyRecordEntry(req: RunRequest, files: Files, ext: Externals, record: Value)
    requires !Truthy(record)
    ensures EntryFor(req, files, ext, record).Succeeded? <==> ExecuteRun(req, None, files, ext).Ok?
    ensures EntryFor(req, files, ext, record).Errored? ==>
              EntryFor(req, files, ext, record).message == Message(ExecuteRun(req, None, files, ext).error)
  {
    FalsyRecordRunsAsSingle(req, record, files, ext);
  }

  /** The template is read inside every per-record run, not before the loop: a template
      id that names no stored template fails each record on its own, and the job still
      completes. */
  lemma MissingTemplateFailsEachRecord(req: RunRequest, files: Files, ext: Externals, record: Value)
    requires TemplateSource(req, files.templates).Err?
    ensures EntryFor(req, files, ext, record) == Errored(record, "Template not found")
  {
  }

  /** A failed job is never served: neither its results nor a save. */
  lemma FailedJobIsRefused(store: JobStore, id: string, filename: string, existing: set<string>)
    requires id in store && store[id].status == Failed
    ensures GetJobResult(store, id) == Err(JobNotComplete)
    ensures SaveJobResults(store, SaveRequest(id, filename), existing) == Err(JobNotComplete)
  {
  }
}

=== FILE: catalog.dfy ===
/** Listing stored templates and datasets from their file names, and the name checks and
    file keys of creating and renaming them. */
module Catalog {
  import opened Outcomes
  import opened FileKeys
  import opened Errors
  import opened Storage

  datatype TemplateMeta = TemplateMeta(id: string, name: string)
  datatype Template = Template(id: string, name: string, content: string)
  datatype DatasetMeta = DatasetMeta(id: string, name: string, fileFormat: string)

  /** An endpoint either answers with an HTTP error or crashes with an unhandled
      exception (a 500 the code did not intend). */
  datatype EndpointError = Http(http: HttpError) | Crash(message: string)

  const TemplateSuffix: string := ".jinja"
  lemma TemplateSuffixParts()
    ensures TemplateSuffix == "." + "jinja"
  {
  }

  const DatasetSuffixes: set<string> := {".json", ".jsonl", ".txt"}

  /** The listing row of one directory entry, if it is one. */
  function TemplateRow(f: FileEntry): Option<TemplateMeta> {
    if f.isFile && Suffix(f.name) == TemplateSuffix then
      match SplitStem(Stem(f.name))
      case None => None
      case Some((id, name)) => Some(TemplateMeta(id, name))
    else None
  }

  /** `list_templates`, over the entries in the order the listing visits them. */
  function ListTemplates(dir: Directory): (r: seq<TemplateMeta>)
    ensures |r| <= |dir|
  {
    if |dir| == 0 then []
    else
      match TemplateRow(dir[0])
      case None => ListTemplates(dir[1..])
      case Some(m) => [m] + ListTemplates(dir[1..])
  }

  /** Every listed template comes from a directory entry, and every well-formed `.jinja`
      entry is listed. */
  lemma {:induction false} ListTemplatesExact(dir: Directory, m: TemplateMeta)
    ensures m in ListTemplates(dir) <==> exists j :: 0 <= j < |dir| && TemplateRow(dir[j]) == Some(m)
    decreases |dir|
  {
    if |dir| > 0 {
      ListTemplatesExact(dir[1..], m);
      if exists j :: 0 <= j < |dir| && TemplateRow(dir[j]) == Some(m) {
        var j :| 0 <= j < |dir| && TemplateRow(dir[j]) == Some(m);
        if j > 0 {
          assert dir[1..][j - 1] == dir[j];
        }
      }
      if exists j :: 0 <= j < |dir| - 1 && TemplateRow(dir[1..][j]) == Some(m) {
        var j :| 0 <= j < |dir| - 1 && TemplateRow(dir[1..][j]) == Some(m);
        assert dir[j + 1] == dir[1..][j];
      }
    }
  }

  lemma {:induction false} ListTemplatesAppend(a: Directory, b: Directory)
    ensures ListTemplates(a + b) == ListTemplates(a) + ListTemplates(b)
    decreases |a|
  {
    if |a| == 0 {
      assert a + b == b;
    } else {
      assert (a + b)[1..] == a[1..] + b;
      ListTemplatesAppend(a[1..], b);
    }
  }

  /** A template written under a fresh id without underscores is listed with exactly the
      id and name it was created with. */
  lemma ListedAfterCreate(dir: Directory, id: string, name: string, content: string)
    requires '_' !in id
    ensures ListTemplates(dir + [FileEntry(FileName(id, name, TemplateSuffix), true, content)])
         == ListTemplates(dir) + [TemplateMeta(id, name)]
  {
    var f := FileEntry(FileName(id, name, TemplateSuffix), true, content);
    KeyOfFileName(id, name, "jinja");
    TemplateSuffixParts();
    SplitBuiltStem(id, name);
    assert TemplateRow(f) == Some(TemplateMeta(id, name));
    ListTemplatesAppend(dir, [f]);
    assert ListTemplates([f]) == [TemplateMeta(id, name)] by {
      assert [f][1..] == [];
    }
  }

  /** The listing row of one dataset entry, if it is one. */
  function DatasetRow(f: FileEntry): (r: Option<DatasetMeta>)
    ensures r.Some? ==> KnownFormat(r.value.fileFormat)
  {
    if f.isFile && Suffix(f.name) in DatasetSuffixes then
      match SplitStem(Stem(f.name))
      case None => None
      case Some((id, name)) =>
        FormatOfDatasetSuffix(Suffix(f.name));
        Some(DatasetMeta(id, name, LStripDots(Suffix(f.name))))
    else None
  }

  predicate KnownFormat(format: string) {
    format in {"json", "jsonl", "txt"}
  }

  /** `list_datasets`, over the entries in the order the listing visits them. */
  function ListDatasets(dir: Directory): (r: seq<DatasetMeta>)
    ensures |r| <= |dir|
    ensures forall k :: 0 <= k < |r| ==> KnownFormat(r[k].fileFormat)
  {
    if |dir| == 0 then []
    else
      var rest := ListDatasets(dir[1..]);
      var row := DatasetRow(dir[0]);
      if row.None? then rest else [row.value] + rest
  }

  /** An accepted dataset suffix is one dot followed by a known format name. */
  lemma DatasetSuffixShape(sfx: string)
    requires sfx in DatasetSuffixes
    ensures |sfx| > 1 && sfx[0] == '.' && sfx[1] != '.'
    ensures sfx[1..] in {"json", "jsonl", "txt"}
  {
    if sfx == ".json" {
      assert sfx[1..] == "json";
    } else if sfx == ".jsonl" {
      assert sfx[1..] == "jsonl";
    } else {
      assert sfx[1..] == "txt";
    }
  }

  /** `suffix.lstrip('.')` of an accepted dataset suffix drops exactly its dot. */
  lemma FormatOfDatasetSuffix(sfx: string)
    requires sfx in DatasetSuffixes
    ensures LStripDots(sfx) == sfx[1..]
    ensures sfx[1..] in {"json", "jsonl", "txt"}
  {
    DatasetSuffixShape(sfx);
    LStripOneDot(sfx);
  }

  /** Every listed dataset comes from a directory entry, and every well-formed dataset
      entry is listed. */
  lemma {:induction false} ListDatasetsFromRows(dir: Directory, m: DatasetMeta)
    ensures m in ListDatasets(dir) <==> exists j :: 0 <= j < |dir| && DatasetRow(dir[j]) == Some(m)
    decreases |dir|
  {
    if |dir| > 0 {
      ListDatasetsFromRows(dir[1..], m);
      if exists j :: 0 <= j < |dir| && DatasetRow(dir[j]) == Some(m) {
        var j :| 0 <= j < |dir| && DatasetRow(dir[j]) == Some(m);
        if j > 0 {
          assert dir[1..][j - 1] == dir[j];
        }
      }
      if exists j :: 0 <= j < |dir| - 1 && DatasetRow(dir[1..][j]) == Some(m) {
        var j :| 0 <= j < |dir| - 1 && DatasetRow(dir[1..][j]) == Some(m);
        assert dir[j + 1] == dir[1..][j];
      }
    }
  }

  /** A dataset entry's row: a file with an accepted suffix whose stem splits at the
      separator, listed with the two halves of the stem and the suffix without its dot. */
  lemma DatasetRowExact(f: FileEntry, m: DatasetMeta)
    ensures DatasetRow(f) == Some(m) <==>
              && f.isFile && Suffix(f.name) in DatasetSuffixes
              && SplitStem(Stem(f.name)) == Some((m.id, m.name))
              && m.fileFormat == Suffix(f.name)[1..]
  {
    if f.isFile && Suffix(f.name) in DatasetSuffixes {
      FormatOfDatasetSuffix(Suffix(f.name));
    }
  }

  /** `list_datasets` lists exactly the well-formed dataset files: a directory, a file of
      another suffix, or a stem without the separator is skipped. */
  lemma ListDatasetsExact(dir: Directory, m: DatasetMeta)
    ensures m in ListDatasets(dir) <==>
              exists j :: && 0 <= j < |dir| && dir[j].isFile && Suffix(dir[j].name) in DatasetSuffixes
                          && SplitStem(Stem(dir[j].name)) == Some((m.id, m.name))
                          && m.fileFormat == Suffix(dir[j].name)[1..]
  {
    ListDatasetsFromRows(dir, m);
    forall j | 0 <= j < |dir| {
      DatasetRowExact(dir[j], m);
    }
  }

  /** A template entry's row: a `.jinja` file whose stem splits at the separator, listed
      with the two halves of the stem. */
  lemma TemplateRowExact(f: FileEntry, m: TemplateMeta)
    ensures TemplateRow(f) == Some(m) <==>
              f.isFile && Suffix(f.name) == TemplateSuffix && SplitStem(Stem(f.name)) == Some((m.id, m.name))
  {
  }

  /** `list_templates` lists exactly the well-formed `.jinja` files. */
  lemma ListTemplatesWellFormed(dir: Directory, m: TemplateMeta)
    ensures m in ListTemplates(dir) <==>
              exists j :: && 0 <= j < |dir| && dir[j].isFile && Suffix(dir[j].name) == TemplateSuffix
                          && SplitStem(Stem(dir[j].name)) == Some((m.id, m.name))
  {
    ListTemplatesExact(dir, m);
    forall j | 0 <= j < |dir| {
      TemplateRowExact(dir[j], m);
    }
  }

  lemma {:induction false} ListDatasetsAppend(a: Directory, b: Directory)
    ensures ListDatasets(a + b) == ListDatasets(a) + ListDatasets(b)
    decreases |a|
  {
    if |a| == 0 {
      assert a + b == b;
    } else {
      assert (a + b)[1..] == a[1..] + b;
      ListDatasetsAppend(a[1..], b);
    }
  }

  /** An accepted suffix is a dot followed by a dot-free format. */
  lemma DatasetSuffixSplits(sfx: string)
    requires sfx in DatasetSuffixes
    ensures sfx == "." + sfx[1..] && |sfx[1..]| > 0 && '.' !in sfx[1..]
  {
    if sfx == ".json" {
      assert sfx[1..] == "json";
    } else if sfx == ".jsonl" {
      assert sfx[1..] == "jsonl";
    } else {
      assert sfx[1..] == "txt";
    }
  }

  /** An uploaded dataset, stored under a fresh id without underscores, is listed with
      exactly the metadata the upload answered, and adds no other row. (Its place after
      the old rows reflects the unsorted listing of this model; the program sorts.) */
  lemma ListedAfterUpload(dir: Directory, id: string, filename: string, content: string)
    requires '_' !in id
    requires CreateDataset(dir, id, filename, content).Ok?
    ensures var r := CreateDataset(dir, id, filename, content).value;
            ListDatasets(r.0) == ListDatasets(dir) + [r.1]
  {
    var r := CreateDataset(dir, id, filename, content).value;
    var name := Stem(PathName(filename));
    var sfx := Suffix(PathName(filename));
    var f := FileEntry(FileName(id, name, sfx), true, content);
    assert r.0 == dir + [f];
    DatasetSuffixSplits(sfx);
    KeyOfFileName(id, name, sfx[1..]);
    SplitBuiltStem(id, name);
    FormatOfDatasetSuffix(sfx);
    assert DatasetRow(f) == Some(r.1);
    ListDatasetsAppend(dir, [f]);
    assert ListDatasets([f]) == [r.1] by {
      assert [f][1..] == [];
    }
  }

  /** An entry that ends the collision scan: a file whose stem has no separator (the
      `split('__', 1)[1]` raises IndexError) or whose display name equals `name`. */
  predicate Decides(f: FileEntry, name: string) {
    f.isFile && (SplitStem(Stem(f.name)).None? || SplitStem(Stem(f.name)).value.1 == name)
  }

  const IndexErrorText: string := "list index out of range"

  const NoFileName: EndpointError := Http(HttpError(400, "No file name provided."))
  const DatasetNameSlash: EndpointError := Http(HttpError(400, "Dataset name cannot contain slashes."))
  const DatasetSuffixRefused: EndpointError := Http(HttpError(400, "Only .json and .jsonl files are allowed."))
  const TemplateNameSlash: EndpointError := Http(HttpError(400, "Template name cannot contain slashes."))
  const TemplateMissing: EndpointError := Http(HttpError(404, "Template not found"))

  /** The collision loop of `create_template`, `create_dataset` and `update_template`. */
  function NameClash(dir: Directory, name: string, kind: string): (r: Option<EndpointError>)
    ensures r.None? <==> forall f :: f in dir ==> !Decides(f, name)
    ensures r.Some? ==> (r.value == Crash(IndexErrorText)
                     || r.value == Http(HttpError(409, "A " + kind + " with name '" + name + "' already exists.")))
    ensures r == Some(Crash(IndexErrorText)) ==> exists f :: f in dir && f.isFile && SplitStem(Stem(f.name)).None?
    ensures r.Some? && r.value.Http? ==> exists f :: f in dir && f.isFile && SplitStem(Stem(f.name)) != None && SplitStem(Stem(f.name)).value.1 == name
  {
    if |dir| == 0 then None
    else
      var f := dir[0];
      assert f in dir;
      assert forall g :: g in dir[1..] ==> g in dir;
      assert forall g :: g in dir ==> g == f || g in dir[1..];
      if f.isFile && SplitStem(Stem(f.name)).None? then
        assert Decides(f, name);
        Some(Crash(IndexErrorText))
      else if f.isFile && SplitStem(Stem(f.name)).value.1 == name then
        assert Decides(f, name);
        Some(Http(HttpError(409, "A " + kind + " with name '" + name + "' already exists.")))
      else NameClash(dir[1..], name, kind)
  }

  /** The collision scan answers for the first deciding entry in iteration order: a crash
      when that entry's stem has no separator, the 409 when it carries the same name. */
  lemma {:induction false} NameClashIsFirstDecider(dir: Directory, name: string, kind: string, i: nat)
    requires i < |dir| && Decides(dir[i], name)
    requires forall j :: 0 <= j < i ==> !Decides(dir[j], name)
    ensures NameClash(dir, name, kind)
         == Some(if SplitStem(Stem(dir[i].name)).None? then Crash(IndexErrorText)
                 else Http(HttpError(409, "A " + kind + " with name '" + name + "' already exists.")))
    decreases i
  {
    if i > 0 {
      assert !Decides(dir[0], name);
      forall j | 0 <= j < i - 1
        ensures !Decides(dir[1..][j], name)
      {
        assert dir[1..][j] == dir[j + 1];
      }
      NameClashIsFirstDecider(dir[1..], name, kind, i - 1);
    }
  }

  /** `create_template`: the name check, the collision scan, and the new entry. */
  function CreateTemplate(dir: Directory, id: string, name: string, content: string): (r: Result<(Directory, TemplateMeta), EndpointError>)
    ensures HasSlash(name) ==> r == Err(TemplateNameSlash)
    ensures r.Ok? <==> !HasSlash(name) && forall f :: f in dir ==> !Decides(f, name)
    ensures !HasSlash(name) && NameClash(dir, name, "template").Some? ==> r == Err(NameClash(dir, name, "template").value)
    ensures r.Ok? ==> r.value.0 == dir + [FileEntry(FileName(id, name, TemplateSuffix), true, content)]
    ensures r.Ok? ==> r.value.1 == TemplateMeta(id, name)
  {
    if HasSlash(name) then Err(TemplateNameSlash)
    else
      match NameClash(dir, name, "template")
      case Some(e) => Err(e)
      case None => Ok((dir + [FileEntry(FileName(id, name, TemplateSuffix), true, content)], TemplateMeta(id, name)))
  }

  /** A created template's file name holds no slash when its id holds none. */
  lemma CreatedTemplateNameIsOneComponent(dir: Directory, id: string, name: string, content: string)
    requires !HasSlash(id)
    requires CreateTemplate(dir, id, name, content).Ok?
    ensures !HasSlash(FileName(id, name, TemplateSuffix))
  {
    var n := FileName(id, name, TemplateSuffix);
    assert n == id + "__" + name + ".jinja";
    forall k | 0 <= k < |n|
      ensures n[k] != '/' && n[k] != '\\'
    {
      if k < |id| {
        assert n[k] == id[k];
      } else if |id| + 2 <= k < |id| + 2 + |name| {
        assert n[k] == name[k - |id| - 2];
      }
    }
  }

  /** `create_dataset`: the upload's file name, then the name, suffix and collision checks
      on its last path component. */
  function CreateDataset(dir: Directory, id: string, filename: string, content: string): (r: Result<(Directory, DatasetMeta), EndpointError>)
    ensures filename == "" ==> r == Err(NoFileName)
    ensures filename != "" && HasSlash(Stem(PathName(filename))) ==> r == Err(DatasetNameSlash)
    ensures filename != "" && !HasSlash(Stem(PathName(filename))) && Suffix(PathName(filename)) !in DatasetSuffixes ==>
              r == Err(DatasetSuffixRefused)
    ensures r.Ok? <==> && filename != "" && !HasSlash(Stem(PathName(filename)))
                       && Suffix(PathName(filename)) in DatasetSuffixes
                       && forall f :: f in dir ==> !Decides(f, Stem(PathName(filename)))
    ensures filename != "" && !HasSlash(Stem(PathName(filename))) && Suffix(PathName(filename)) in DatasetSuffixes
            && NameClash(dir, Stem(PathName(filename)), "dataset").Some? ==>
              r == Err(NameClash(dir, Stem(PathName(filename)), "dataset").value)
    ensures r.Ok? ==> var name := Stem(PathName(filename));
                      var sfx := Suffix(PathName(filename));
                      && r.value.0 == dir + [FileEntry(FileName(id, name, sfx), true, content)]
                      && r.value.1 == DatasetMeta(id, name, sfx[1..])
  {
    if filename == "" then Err(NoFileName)
    else StoreDataset(dir, id, Stem(PathName(filename)), Suffix(PathName(filename)), content)
  }

  /** The checks of `create_dataset` on the upload's stem and suffix, and the new entry. */
  function StoreDataset(dir: Directory, id: string, name: string, sfx: string, content: string)
    : (r: Result<(Directory, DatasetMeta), EndpointError>)
    ensures HasSlash(name) ==> r == Err(DatasetNameSlash)
    ensures !HasSlash(name) && sfx !in DatasetSuffixes ==> r == Err(DatasetSuffixRefused)
    ensures r.Ok? <==> !HasSlash(name) && sfx in DatasetSuffixes && forall f :: f in dir ==> !Decides(f, name)
    ensures !HasSlash(name) && sfx in DatasetSuffixes && NameClash(dir, name, "dataset").Some? ==>
              r == Err(NameClash(dir, name, "dataset").value)
    ensures r.Ok? ==> && r.value.0 == dir + [FileEntry(FileName(id, name, sfx), true, content)]
                      && r.value.1 == DatasetMeta(id, name, sfx[1..])
  {
    if HasSlash(name) then Err(DatasetNameSlash)
    else if sfx !in DatasetSuffixes then Err(DatasetSuffixRefused)
    else
      match NameClash(dir, name, "dataset")
      case Some(e) => Err(e)
      case None =>
        FormatOfDatasetSuffix(sfx);
        Ok((dir + [FileEntry(FileName(id, name, sfx), true, content)], DatasetMeta(id, name, LStripDots(sfx))))
  }

  /** `update_template`: find by id, check the effective name, rename on a new name, and
      replace the content when one is given. */
  function UpdateTemplate(dir: Directory, id: string, newName: Option<string>, newContent: Option<string>)
    : (r: Result<(Directory, Template), EndpointError>)
    ensures FindIndex(dir, id).None? ==> r == Err(TemplateMissing)
    ensures r.Ok? ==> FindIndex(dir, id).Some?
    ensures r.Ok? ==> var i := FindIndex(dir, id).value;
                      && |r.value.0| == |dir|
                      && (forall j :: 0 <= j < |dir| && j != i ==> r.value.0[j] == dir[j])
                      && r.value.0[i].isFile
                      && r.value.0[i].text == newContent.GetOr(dir[i].text)
                      && r.value.1.content == r.value.0[i].text
                      && r.value.1.id == id
                      && !HasSlash(r.value.1.name)
                      && (|| (r.value.0[i].name == dir[i].name
                              && SplitStem(Stem(dir[i].name)).Some?
                              && SplitStem(Stem(dir[i].name)).value.1 == r.value.1.name)
                          || r.value.0[i].name == FileName(id, r.value.1.name, TemplateSuffix))
    ensures r.Ok? && newName.Some? ==> r.value.1.name == newName.value
    ensures newName.Some? && HasSlash(newName.value) ==> r.Err?
    // the found stem always holds the separator, so `split('__', 1)[1]` cannot fail and
    // the effective name decides: rename exactly when a different name is given
    ensures FindIndex(dir, id).Some? ==>
              && SplitStem(Stem(dir[FindIndex(dir, id).value].name)).Some?
              && r == RewriteFound(dir, FindIndex(dir, id).value, id,
                                   SplitStem(Stem(dir[FindIndex(dir, id).value].name)).value.1, newName, newContent)
  {
    var found := FindIndex(dir, id);
    if found.None? then Err(TemplateMissing)
    else
      var i := found.value;
      MatchedStemSplits(dir[i], id);
      RewriteFound(dir, i, id, SplitStem(Stem(dir[i].name)).value.1, newName, newContent)
  }

  /** Whatever the id, the stem of an entry the lookup matches holds a separator, so the
      display name of a found template always exists. */
  lemma MatchedStemSplits(f: FileEntry, id: string)
    requires HasId(f, id)
    ensures SplitStem(Stem(f.name)).Some?
  {
    var stem := Stem(f.name);
    assert stem[..|id| + 2] == id + Separator;
    assert stem[|id|] == (id + Separator)[|id|] && stem[|id| + 1] == (id + Separator)[|id| + 1];
    assert IsSepAt(stem, |id|);
  }

  /** The rest of `update_template` once entry `i`, displayed as `current`, is found. */
  function RewriteFound(dir: Directory, i: nat, id: string, current: string, newName: Option<string>, newContent: Option<string>)
    : (r: Result<(Directory, Template), EndpointError>)
    requires i < |dir|
    ensures var effective := newName.GetOr(current);
            var renamed := newName.Some? && newName.value != current;
            && (HasSlash(effective) ==> r == Err(TemplateNameSlash))
            && (r.Ok? <==> !HasSlash(effective) && (renamed ==> forall f :: f in dir ==> !Decides(f, effective)))
            && (!HasSlash(effective) && renamed && NameClash(dir, effective, "template").Some? ==>
                  r == Err(NameClash(dir, effective, "template").value))
            && (r.Ok? ==> r.value.1 == Template(id, effective, newContent.GetOr(dir[i].text)))
            && (r.Ok? ==> |r.value.0| == |dir|
                          && r.value.0 == dir[i := FileEntry(r.value.0[i].name, true, newContent.GetOr(dir[i].text))])
            && (r.Ok? ==> (forall j :: 0 <= j < |dir| && j != i ==> r.value.0[j] == dir[j])
                          && r.value.0[i] == FileEntry(r.value.0[i].name, true, newContent.GetOr(dir[i].text)))
            && (!renamed ==> effective == current)
            && (r.Ok? && renamed ==> r.value.0[i].name == FileName(id, effective, TemplateSuffix))
            && (r.Ok? && !renamed ==> r.value.0[i].name == dir[i].name)
  {
    var effective := newName.GetOr(current);
    if HasSlash(effective) then Err(TemplateNameSlash)
    else
      var renamed := newName.Some? && newName.value != current;
      var clash := if renamed then NameClash(dir, effective, "template") else None;
      match clash
      case Some(e) => Err(e)
      case None =>
        var target := if renamed then FileName(id, effective, TemplateSuffix) else dir[i].name;
        var content := newContent.GetOr(dir[i].text);
        Ok((dir[i := FileEntry(target, true, content)], Template(id, effective, content)))
  }

  /** The stem of a found template splits into the id it was found by and the rest. */
  lemma FoundStemSplits(f: FileEntry, id: string)
    requires '_' !in id && HasId(f, id)
    ensures SplitStem(Stem(f.name)) == Some((id, Stem(f.name)[|id| + 2..]))
  {
    var stem := Stem(f.name);
    assert stem[..|id| + 2] == id + Separator;
    assert stem == id + Separator + stem[|id| + 2..];
    SplitBuiltStem(id, stem[|id| + 2..]);
  }

  /** Rewriting the found entry of a template, keeping its file name or renaming it under
      the same id, keeps it the first match for that id. */
  lemma {:induction false} RewriteKeepsMatch(dir: Directory, d: Directory, i: nat, id: string, name: string)
    requires '_' !in id
    requires FindIndex(dir, id) == Some(i)
    requires |d| == |dir| && d[i].isFile
    requires forall j :: 0 <= j < |dir| && j != i ==> d[j] == dir[j]
    requires || (d[i].name == dir[i].name && SplitStem(Stem(dir[i].name)).Some? && SplitStem(Stem(dir[i].name)).value.1 == name)
             || d[i].name == FileName(id, name, TemplateSuffix)
    ensures FindIndex(d, id) == Some(i)
    ensures SplitStem(Stem(d[i].name)) == Some((id, name))
  {
    assert HasId(d[i], id) && SplitStem(Stem(d[i].name)) == Some((id, name)) by {
      if d[i].name == FileName(id, name, TemplateSuffix) {
        TemplateKeyMatches(id, name);
      } else {
        FoundStemSplits(dir[i], id);
      }
    }
    forall j | 0 <= j < i
      ensures !HasId(d[j], id)
    {
      assert d[j] == dir[j];
    }
  }

  /** A template file name built from an id without underscores matches that id and
      splits back into it and the name. */
  lemma TemplateKeyMatches(id: string, name: string)
    requires '_' !in id
    ensures StartsWith(Stem(FileName(id, name, TemplateSuffix)), id + Separator)
    ensures SplitStem(Stem(FileName(id, name, TemplateSuffix))) == Some((id, name))
  {
    TemplateSuffixParts();
    KeyOfFileName(id, name, "jinja");
    SplitBuiltStem(id, name);
    var stem := id + Separator + name;
    assert stem[..|id + Separator|] == id + Separator;
  }

  /** After a successful update the template is still found under its id, at the same
      position, and its stored file name splits into the id and the effective name. */
  lemma UpdateKeepsTemplateReachable(dir: Directory, id: string, newName: Option<string>, newContent: Option<string>)
    requires '_' !in id
    requires UpdateTemplate(dir, id, newName, newContent).Ok?
    ensures FindIndex(UpdateTemplate(dir, id, newName, newContent).value.0, id) == FindIndex(dir, id)
    ensures SplitStem(Stem(UpdateTemplate(dir, id, newName, newContent).value.0[FindIndex(dir, id).value].name))
         == Some((id, UpdateTemplate(dir, id, newName, newContent).value.1.name))
  {
    var r := UpdateTemplate(dir, id, newName, newContent).value;
    RewriteKeepsMatch(dir, r.0, FindIndex(dir, id).value, id, r.1.name);
  }
}

=== FILE: collaborators.dfy ===
/** The code the backend calls but that is not part of this model: the JSON decoder, the
    Jinja2 renderer, the language model, and Python's `exec` of user-supplied code. Each is
    a total function parameter, so every run of the model is deterministic in them; a
    raised exception is an `Err` carrying the exception's text. */
module Collaborators {
  import opened Outcomes
  import opened Values

  /** `LLMConfig`: passed through to the model untouched (the float temperature is not
      modelled). */
  datatype LlmConfig = LlmConfig(provider: string, model: string)

  /** An instance of a pydantic model class: its `str()` and its `model_dump()`. */
  datatype Instance = Instance(repr: string, fields: map<string, Value>)

  /** Whatever a parser produced: a pydantic instance, or a plain value without
      `model_dump`. */
  datatype PyObject = ModelObject(instance: Instance) | PlainObject(value: Value)

  /** What a name in the local scope of `exec(code, globals(), local_scope)` is bound to. */
  datatype LocalBinding =
    | FunctionDef
    | ModelClassDef(handle: string)   // a subclass of pydantic.BaseModel
    | BaseModelAlias                  // pydantic.BaseModel itself, imported by the code
    | OtherClass
    | OtherValue

  /** Outcome of `exec`: the exception it raised, or the local scope in definition order
      (a Python dict, so names are distinct). */
  datatype ExecOutcome = Raised(message: string) | Executed(locals: seq<(string, LocalBinding)>)

  datatype Externals = Externals(
    /** `json.load` of a `.json` file's text */
    decodeJson: string -> Result<Value, string>,
    /** `json.loads` of every line of a `.jsonl` file's text */
    decodeJsonLines: string -> Result<seq<Value>, string>,
    /** `jinja2.Environment().from_string(text).render(context)` */
    render: (string, map<string, Value>) -> Result<string, string>,
    /** `OpenAI(...).complete(prompt).text` */
    complete: (string, LlmConfig) -> Result<string, string>,
    /** `OpenAI(...).structured_predict(model_class, PromptTemplate(prompt))` */
    predict: (string, string, LlmConfig) -> Result<Instance, string>,
    /** `exec(code, globals(), {})` */
    exec: string -> ExecOutcome,
    /** calling the `parse` the code defines on the given text */
    callParse: (string, string) -> Result<PyObject, string>
  )
}

=== FILE: context.dfy ===
/** Building the rendering context from data-source bindings (step 2 of
    `execute_llm_run`). Bindings are resolved in order; each resolved value is either
    merged into the top level or stored under its context key. The value of the previous
    binding is carried from one iteration to the next, as the Python local
    `context_value` is. */
module Context {
  import opened Outcomes
  import opened Values
  import opened Errors
  import opened Collaborators
  import opened Storage

  datatype Scope = RecordScope | GlobalScope

  datatype Binding = Binding(sourceId: string, contextKey: string, scope: Scope, row: Option<int>)

  type Ctx = map<string, Value>

  /** The context built so far, and the last value bound (`context_value`), if any. */
  datatype State = State(ctx: Ctx, carried: Option<Value>)

  const Initial: State := State(map[], None)

  /** `binding.row or 0`: an absent row reads row 0. */
  function RowIndex(row: Option<int>): int {
    row.GetOr(0)
  }

  /** The record a global binding reads: the row must lie in [0, count). */
  function ResolveGlobal(data: seq<Value>, row: Option<int>): (r: Result<Value, RunError>)
    ensures r.Ok? <==> 0 <= RowIndex(row) < |data|
    ensures r.Ok? ==> r.value == data[RowIndex(row)]
    ensures r.Err? ==> r.error == InvalidGlobalRow
  {
    var i := RowIndex(row);
    if 0 <= i < |data| then Ok(data[i]) else Err(InvalidGlobalRow)
  }

  /** The supplied record counts only when it is truthy (`if record:`). */
  predicate Present(record: Option<Value>) {
    record.Some? && Truthy(record.value)
  }

  /** The value one binding contributes, given the value carried from the previous one. */
  function ResolveValue(b: Binding, record: Option<Value>, carried: Option<Value>, datasets: Directory, ext: Externals)
    : (r: Result<Value, RunError>)
    ensures FindFile(datasets, b.sourceId).None? ==> r == Err(DatasetNotFound(b.sourceId))
    ensures FindFile(datasets, b.sourceId).Some? && b.scope == RecordScope && Present(record) ==> r == Ok(record.value)
  {
    match FindFile(datasets, b.sourceId)
    case None => Err(DatasetNotFound(b.sourceId))
    case Some(f) =>
      if b.scope == GlobalScope then
        match LoadDataset(f, ext)
        case Err(e) => Err(DatasetUnloadable(e))
        case Ok(data) => ResolveGlobal(data, b.row)
      else if Present(record) then
        Ok(record.value)
      else
        match LoadDataset(f, ext)
        case Err(e) => Err(DatasetUnloadable(e))
        case Ok(data) =>
          if |data| > 0 then Ok(data[0])
          else
            match carried
            case Some(v) => Ok(v)
            case None => Err(ContextValueUnbound)
  }

  /** Merging one value into the context: an empty key with a dict value spreads its
      fields over the top level (the new fields win); anything else is stored under the
      key. */
  function Merge(ctx: Ctx, key: string, v: Value): (r: Ctx)
    ensures key == "" && v.VDict? ==>
              && r.Keys == ctx.Keys + v.fields.Keys
              && (forall k :: k in v.fields ==> r[k] == v.fields[k])
              && (forall k :: k in ctx && k !in v.fields ==> r[k] == ctx[k])
    ensures !(key == "" && v.VDict?) ==>
              && r.Keys == ctx.Keys + {key}
              && r[key] == v
              && (forall k :: k in ctx && k != key ==> r[k] == ctx[k])
  {
    if key == "" && v.VDict? then ctx + v.fields else ctx[key := v]
  }

  /** One iteration of the binding loop. */
  function Step(s: State, b: Binding, record: Option<Value>, datasets: Directory, ext: Externals): Result<State, RunError> {
    match ResolveValue(b, record, s.carried, datasets, ext)
    case Err(e) => Err(e)
    case Ok(v) => Ok(State(Merge(s.ctx, b.contextKey, v), Some(v)))
  }

  /** A step that succeeds found its dataset, keeps every key and binds a value. */
  lemma StepFacts(s: State, b: Binding, record: Option<Value>, datasets: Directory, ext: Externals)
    ensures var r := Step(s, b, record, datasets, ext);
            r.Ok? ==> && FindFile(datasets, b.sourceId).Some?
                      && s.ctx.Keys <= r.value.ctx.Keys
                      && r.value.carried.Some?
  {
  }

  /** The binding loop from state `s`. */
  function Fold(bs: seq<Binding>, s: State, record: Option<Value>, datasets: Directory, ext: Externals): (r: Result<State, RunError>)
    ensures r.Ok? ==> s.ctx.Keys <= r.value.ctx.Keys
    ensures r.Ok? ==> forall b :: b in bs ==> FindFile(datasets, b.sourceId).Some?
    ensures r.Ok? && |bs| > 0 ==> r.value.carried.Some?
    ensures r.Ok? && |bs| == 0 ==> r.value == s
    decreases |bs|
  {
    if |bs| == 0 then Ok(s)
    else
      match Step(s, bs[0], record, datasets, ext)
      case Err(e) => Err(e)
      case Ok(s') =>
        StepFacts(s, bs[0], record, datasets, ext);
        var r := Fold(bs[1..], s', record, datasets, ext);
        assert forall b :: b in bs ==> b == bs[0] || b in bs[1..];
        r
  }

  /** The context `execute_llm_run` renders the template against. */
  function BuildContext(bs: seq<Binding>, record: Option<Value>, datasets: Directory, ext: Externals): Result<Ctx, RunError> {
    match Fold(bs, Initial, record, datasets, ext)
    case Err(e) => Err(e)
    case Ok(s) => Ok(s.ctx)
  }

  /** The loop over `bs + [b]` is the loop over `bs` followed by one more step. */
  lemma {:induction false} FoldSnoc(bs: seq<Binding>, b: Binding, s: State, record: Option<Value>, datasets: Directory, ext: Externals)
    ensures Fold(bs + [b], s, record, datasets, ext)
         == match Fold(bs, s, record, datasets, ext)
            case Err(e) => Err(e)
            case Ok(t) => Step(t, b, record, datasets, ext)
    decreases |bs|
  {
    if |bs| == 0 {
      assert bs + [b] == [b];
      assert [b][1..] == [];
    } else {
      assert (bs + [b])[0] == bs[0];
      assert (bs + [b])[1..] == bs[1..] + [b];
      match Step(s, bs[0], record, datasets, ext)
      case Err(e) =>
      case Ok(s') => FoldSnoc(bs[1..], b, s', record, datasets, ext);
    }
  }

  /** Later bindings win: whatever the last binding resolves to is what the final context
      shows, at the top level for an empty key and a dict, under the key otherwise. */
  lemma LastBindingWins(bs: seq<Binding>, b: Binding, record: Option<Value>, datasets: Directory, ext: Externals)
    requires Fold(bs, Initial, record, datasets, ext).Ok?
    requires ResolveValue(b, record, Fold(bs, Initial, record, datasets, ext).value.carried, datasets, ext).Ok?
    ensures var v := ResolveValue(b, record, Fold(bs, Initial, record, datasets, ext).value.carried, datasets, ext).value;
            var c := BuildContext(bs + [b], record, datasets, ext);
            && c.Ok?
            && (b.contextKey == "" && v.VDict? ==> forall k :: k in v.fields ==> k in c.value && c.value[k] == v.fields[k])
            && (!(b.contextKey == "" && v.VDict?) ==> b.contextKey in c.value && c.value[b.contextKey] == v)
  {
    FoldSnoc(bs, b, Initial, record, datasets, ext);
  }

  /** A binding whose dataset is missing fails the whole context with that dataset's id,
      once the bindings before it have resolved. */
  lemma MissingDatasetFails(bs: seq<Binding>, b: Binding, record: Option<Value>, datasets: Directory, ext: Externals)
    requires Fold(bs, Initial, record, datasets, ext).Ok?
    requires FindFile(datasets, b.sourceId).None?
    ensures BuildContext(bs + [b], record, datasets, ext) == Err(DatasetNotFound(b.sourceId))
  {
    FoldSnoc(bs, b, Initial, record, datasets, ext);
  }

  /** The loop reads the record only through `if record:` and, when it holds, the record
      itself: two absent or falsy records give the same outcome. */
  lemma {:induction false} FoldIgnoresFalsyRecord(bs: seq<Binding>, s: State, r1: Option<Value>, r2: Option<Value>, datasets: Directory, ext: Externals)
    requires !Present(r1) && !Present(r2)
    ensures Fold(bs, s, r1, datasets, ext) == Fold(bs, s, r2, datasets, ext)
    decreases |bs|
  {
    if |bs| > 0 {
      ResolveIgnoresFalsyRecord(bs[0], r1, r2, s.carried, datasets, ext);
      match Step(s, bs[0], r1, datasets, ext)
      case Err(e) =>
      case Ok(s') => FoldIgnoresFalsyRecord(bs[1..], s', r1, r2, datasets, ext);
    }
  }

  /** With only global bindings the supplied record plays no part at all. */
  lemma {:induction false} FoldIgnoresRecordWhenAllGlobal(bs: seq<Binding>, s: State, r1: Option<Value>, r2: Option<Value>, datasets: Directory, ext: Externals)
    requires forall b :: b in bs ==> b.scope == GlobalScope
    ensures Fold(bs, s, r1, datasets, ext) == Fold(bs, s, r2, datasets, ext)
    decreases |bs|
  {
    if |bs| > 0 {
      GlobalIgnoresRecord(bs[0], r1, r2, s.carried, datasets, ext);
      var st := Step(s, bs[0], r1, datasets, ext);
      assert st == Step(s, bs[0], r2, datasets, ext);
      if st.Ok? {
        FoldIgnoresRecordWhenAllGlobal(bs[1..], st.value, r1, r2, datasets, ext);
      }
    }
  }

  /** One binding reads the record only through `if record:`. */
  lemma ResolveIgnoresFalsyRecord(b: Binding, r1: Option<Value>, r2: Option<Value>, carried: Option<Value>, datasets: Directory, ext: Externals)
    requires !Present(r1) && !Present(r2)
    ensures ResolveValue(b, r1, carried, datasets, ext) == ResolveValue(b, r2, carried, datasets, ext)
  {
  }

  /** A global binding does not read the record at all. */
  lemma GlobalIgnoresRecord(b: Binding, r1: Option<Value>, r2: Option<Value>, carried: Option<Value>, datasets: Directory, ext: Externals)
    requires b.scope == GlobalScope
    ensures ResolveValue(b, r1, carried, datasets, ext) == ResolveValue(b, r2, carried, datasets, ext)
  {
  }

  /** A global binding reads exactly the record `get_dataset_record` serves at its row,
      and fails exactly when that lookup fails. */
  lemma GlobalAgreesWithRecordLookup(b: Binding, record: Option<Value>, carried: Option<Value>, datasets: Directory, ext: Externals)
    requires b.scope == GlobalScope
    ensures var g := GetDatasetRecord(datasets, b.sourceId, RowIndex(b.row), ext);
            var r := ResolveValue(b, record, carried, datasets, ext);
            && (r.Ok? <==> g.Ok?)
            && (r.Ok? ==> r.value == g.value)
            && (g == Err(DatasetMissing) <==> r == Err(DatasetNotFound(b.sourceId)))
  {
    match FindFile(datasets, b.sourceId)
    case None =>
    case Some(f) =>
      match LoadDataset(f, ext)
      case Err(e) =>
        assert ResolveValue(b, record, carried, datasets, ext) == Err(DatasetUnloadable(e));
      case Ok(data) =>
        assert ResolveValue(b, record, carried, datasets, ext) == ResolveGlobal(data, b.row);
  }

  /** Without a truthy record, a record binding reads the record served at index 0 when its
      dataset has one. */
  lemma RecordFallbackIsFirstRecord(b: Binding, record: Option<Value>, carried: Option<Value>, datasets: Directory, ext: Externals)
    requires b.scope == RecordScope && !Present(record)
    requires GetDatasetRecord(datasets, b.sourceId, 0, ext).Ok?
    ensures ResolveValue(b, record, carried, datasets, ext) == Ok(GetDatasetRecord(datasets, b.sourceId, 0, ext).value)
  {
  }

  /** A record binding over an empty dataset, with no truthy record, reuses the value the
      previous binding bound. */
  lemma EmptyFallbackReusesPrevious(b: Binding, record: Option<Value>, s: State, datasets: Directory, ext: Externals)
    requires b.scope == RecordScope && !Present(record) && s.carried.Some?
    requires FindFile(datasets, b.sourceId).Some?
    requires LoadDataset(FindFile(datasets, b.sourceId).value, ext) == Ok([])
    ensures Step(s, b, record, datasets, ext) == Ok(State(Merge(s.ctx, b.contextKey, s.carried.value), s.carried))
  {
  }

  /** The same binding as the first of the list has nothing to reuse: the run fails with
      the unbound-local error. */
  lemma FirstEmptyRecordBindingUnbound(b: Binding, rest: seq<Binding>, record: Option<Value>, datasets: Directory, ext: Externals)
    requires b.scope == RecordScope && !Present(record)
    requires FindFile(datasets, b.sourceId).Some?
    requires LoadDataset(FindFile(datasets, b.sourceId).value, ext) == Ok([])
    ensures BuildContext([b] + rest, record, datasets, ext) == Err(ContextValueUnbound)
  {
    assert ([b] + rest)[0] == b;
  }
}

=== FILE: errors.dfy ===
/** The exceptions a run can raise, and the text `str(e)` gives for each: the batch
    orchestrator stores exactly that text as a record's or a job's error. */
module Errors {

  /** FastAPI's `HTTPException(status_code, detail)`. */
  datatype HttpError = HttpError(code: nat, detail: string)

  function DigitChar(d: nat): char
    requires d < 10
  {
    ('0' as int + d) as char
  }

  function Decimal(n: nat): string
    decreases n
  {
    if n < 10 then [DigitChar(n)] else Decimal(n / 10) + [DigitChar(n % 10)]
  }

  /** `str()` of an HTTPException: "<status>: <detail>". */
  function HttpText(e: HttpError): string {
    Decimal(e.code) + ": " + e.detail
  }

  /** Failures of `create_model_from_string` and `structured_predict`. */
  datatype ModelError =
    | InvalidModelDefinition(cause: string)
    | NoModelClass
    | PredictionFailed(cause: string)

  /** Failures of `execute_custom_python`. */
  datatype CustomError =
    | InvalidParserCode(cause: string)
    | ParseFunctionMissing
    | ParseFunctionRaised(cause: string)

  /** Everything `execute_llm_run` can raise. */
  datatype RunError =
    | TemplateNotFound
    | DatasetNotFound(id: string)
    | DatasetUnloadable(http: HttpError)
    | InvalidGlobalRow
    | ContextValueUnbound          // UnboundLocalError on `context_value`
    | RenderFailed(cause: string)
    | MissingLlmConfig             // `request.llm.model` with `llm` left as None
    | CompletionFailed(cause: string)
    | StructuredParsingFailed(model: ModelError)
    | CustomParsingFailed(custom: CustomError)
    | NoModelDump(typeName: string) // AttributeError from `.model_dump()`

  const StructuredPrefix: string := "Pydantic model parsing failed: "
  const CustomPrefix: string := "Custom Python parsing failed: "

  function ModelErrorText(e: ModelError): string {
    match e
    case InvalidModelDefinition(c) => "Invalid Pydantic model definition: " + c
    case NoModelClass =>
      "No Pydantic model class found in the provided code. Make sure to define a class that inherits from pydantic.BaseModel."
    case PredictionFailed(c) => c
  }

  function CustomErrorText(e: CustomError): string {
    match e
    case InvalidParserCode(c) => "Invalid Python code for parsing: " + c
    case ParseFunctionMissing => "A 'parse' function was not found in the provided code."
    case ParseFunctionRaised(c) => "Error executing the 'parse' function: " + c
  }

  function Message(e: RunError): string {
    match e
    case TemplateNotFound => "Template not found"
    case DatasetNotFound(id) => "Dataset with ID " + id + " not found."
    case DatasetUnloadable(h) => HttpText(h)
    case InvalidGlobalRow => "Invalid row index for global binding."
    case ContextValueUnbound =>
      "cannot access local variable 'context_value' where it is not associated with a value"
    case RenderFailed(c) => c
    case MissingLlmConfig => "'NoneType' object has no attribute 'model'"
    case CompletionFailed(c) => c
    case StructuredParsingFailed(m) => StructuredPrefix + ModelErrorText(m)
    case CustomParsingFailed(c) => CustomPrefix + CustomErrorText(c)
    case NoModelDump(t) => "'" + t + "' object has no attribute 'model_dump'"
  }
}

=== FILE: file_keys.dfy ===
/** The `{id}__{name}{suffix}` naming scheme of stored templates and datasets, and the
    pieces of `pathlib` and `str` the backend uses to build and take apart such names. */
module FileKeys {
  import opened Outcomes

  /** Separator between a stored file's id and its display name. */
  const Separator: string := "__"

  /** The file name under which a new template or dataset is written. */
  function FileName(id: string, name: string, suffix: string): string {
    id + Separator + name + suffix
  }

  predicate StartsWith(s: string, prefix: string) {
    |prefix| <= |s| && s[..|prefix|] == prefix
  }

  lemma PrefixStartsConcat(prefix: string, rest: string)
    ensures StartsWith(prefix + rest, prefix)
  {
    assert (prefix + rest)[..|prefix|] == prefix;
  }

  /** The check every name goes through before it becomes part of a path. */
  predicate HasSlash(s: string) {
    '/' in s || '\\' in s
  }

  predicate IsSepAt(s: string, k: int) {
    0 <= k && k + 1 < |s| && s[k] == '_' && s[k + 1] == '_'
  }

  /** Position of the first separator at or after `i`. */
  function SepIndexFrom(s: string, i: nat): (r: Option<nat>)
    requires i <= |s|
    ensures r.Some? ==> i <= r.value && IsSepAt(s, r.value)
    ensures r.Some? ==> forall k :: i <= k < r.value ==> !IsSepAt(s, k)
    ensures r.None? ==> forall k :: i <= k ==> !IsSepAt(s, k)
    decreases |s| - i
  {
    if i + 1 >= |s| then None
    else if s[i] == '_' && s[i + 1] == '_' then Some(i)
    else SepIndexFrom(s, i + 1)
  }

  /** `id, name = stem.split('__', 1)`: splits at the first separator; `None` is the
      ValueError raised when the stem holds no separator at all. */
  function SplitStem(stem: string): (r: Option<(string, string)>)
    ensures r.None? <==> forall k :: !IsSepAt(stem, k)
    ensures r.Some? ==> stem == r.value.0 + Separator + r.value.1
    ensures r.Some? ==> forall k :: 0 <= k < |r.value.0| ==> !IsSepAt(stem, k)
  {
    match SepIndexFrom(stem, 0)
    case None => None
    case Some(k) =>
      assert stem == stem[..k] + Separator + stem[k + 2..];
      Some((stem[..k], stem[k + 2..]))
  }

  /** A name built from an id without underscores splits back into that id and name,
      whatever the name holds (separators included). */
  lemma SplitBuiltStem(id: string, name: string)
    requires '_' !in id
    ensures SplitStem(id + Separator + name) == Some((id, name))
  {
    var s := id + Separator + name;
    assert IsSepAt(s, |id|);
    forall k | 0 <= k < |id|
      ensures !IsSepAt(s, k)
    {
      assert s[k] == id[k];
    }
    var r := SplitStem(s);
    assert r.Some?;
    var (a, b) := r.value;
    assert |a| == |id|;
    assert s[..|id|] == id;
    assert a == s[..|a|];
    assert b == s[|a| + 2..];
  }

  /** Python's `s.rfind(c)`: the last index holding `c`, or -1. */
  function RFind(s: string, c: char): (r: int)
    ensures -1 <= r < |s|
    ensures r >= 0 ==> s[r] == c
    ensures forall k :: r < k < |s| ==> s[k] != c
  {
    if |s| == 0 then -1
    else if s[|s| - 1] == c then |s| - 1
    else RFind(s[..|s| - 1], c)
  }

  /** `PurePath(name).suffix`: from the last dot, unless that dot leads or ends the name. */
  function Suffix(name: string): (r: string)
    ensures r == "" || (|r| >= 2 && r[0] == '.' && '.' !in r[1..])
    ensures r == "" <==> |name| == 0 || name[|name| - 1] == '.' || !exists k :: 0 < k < |name| - 1 && name[k] == '.'
  {
    var i := RFind(name, '.');
    LastDotIsInner(name);
    if 0 < i < |name| - 1 then name[i..] else ""
  }

  /** The last dot lies strictly inside the name exactly when the name does not end in a
      dot and has a dot after its first character. */
  lemma LastDotIsInner(name: string)
    ensures var i := RFind(name, '.');
            0 < i < |name| - 1 <==> |name| > 0 && name[|name| - 1] != '.' && exists k :: 0 < k < |name| - 1 && name[k] == '.'
  {
    var i := RFind(name, '.');
    if 0 < i < |name| - 1 {
      assert name[i] == '.';
    } else if |name| > 0 && name[|name| - 1] != '.' {
      assert i < |name| - 1;
      forall k | 0 < k < |name| - 1
        ensures name[k] != '.'
      {
        assert i <= 0 && i < k;
      }
    }
  }

  /** `PurePath(name).stem`: the name without its suffix. */
  function Stem(name: string): (r: string)
    ensures r + Suffix(name) == name
  {
    var i := RFind(name, '.');
    if 0 < i < |name| - 1 then name[..i] else name
  }

  /** Writing a name with a one-dot suffix and reading its stem and suffix back gives the
      two parts it was written from. */
  lemma StemSuffixOfFileName(base: string, ext: string)
    requires |base| > 0 && |ext| > 0 && '.' !in ext
    ensures Stem(base + "." + ext) == base
    ensures Suffix(base + "." + ext) == "." + ext
  {
    var s := base + "." + ext;
    assert s[|base|] == '.';
    forall k | |base| < k < |s|
      ensures s[k] != '.'
    {
      assert s[k] == ext[k - |base| - 1];
    }
    var i := RFind(s, '.');
    assert i == |base|;
    assert s[..i] == base;
    assert s[i..] == "." + ext;
  }

  /** The stem of every stored file name built from (id, name, "." + ext). */
  lemma KeyOfFileName(id: string, name: string, ext: string)
    requires |ext| > 0 && '.' !in ext
    ensures Stem(FileName(id, name, "." + ext)) == id + Separator + name
    ensures Suffix(FileName(id, name, "." + ext)) == "." + ext
  {
    assert FileName(id, name, "." + ext) == (id + Separator + name) + "." + ext;
    StemSuffixOfFileName(id + Separator + name, ext);
  }

  /** `PurePosixPath(p).name`: the last component, ignoring empty and "." components. */
  function PathName(p: string): (r: string)
    ensures '/' !in r
    ensures '/' !in p && p != "" && p != "." ==> r == p
    decreases |p|
  {
    var cut := RFind(p, '/');
    if cut < 0 then
      (if p == "" || p == "." then "" else p)
    else
      var last := p[cut + 1..];
      if last == "" || last == "." then PathName(p[..cut])
      else
        assert forall k :: 0 <= k < |last| ==> last[k] == p[cut + 1 + k];
        last
  }

  /** `p.split('/')`, scanning from the front. */
  function SplitSlash(p: string): (r: seq<string>)
    ensures |r| >= 1
    decreases |p|
  {
    if |p| == 0 then [""]
    else if p[0] == '/' then [""] + SplitSlash(p[1..])
    else
      var rest := SplitSlash(p[1..]);
      [[p[0]] + rest[0]] + rest[1..]
  }

  /** A component that `PurePosixPath` drops when it parses a path. */
  predicate Ignorable(c: string) {
    c == "" || c == "."
  }

  /** The last component that is kept, or "" when every component is dropped. */
  function LastNamed(cs: seq<string>): string
    decreases |cs|
  {
    if |cs| == 0 then ""
    else if Ignorable(cs[|cs| - 1]) then LastNamed(cs[..|cs| - 1])
    else cs[|cs| - 1]
  }

  lemma {:induction false} SplitSlashFree(a: string)
    requires '/' !in a
    ensures SplitSlash(a) == [a]
    decreases |a|
  {
    if |a| > 0 {
      assert '/' !in a[1..] by {
        forall k | 0 <= k < |a[1..]| ensures a[1..][k] != '/' { assert a[1..][k] == a[k + 1]; }
      }
      SplitSlashFree(a[1..]);
      assert [a[0]] + a[1..] == a;
    }
  }

  lemma {:induction false} SplitSlashJoin(a: string, b: string)
    ensures SplitSlash(a + "/" + b) == SplitSlash(a) + SplitSlash(b)
    decreases |a|
  {
    if |a| == 0 {
      assert a + "/" + b == "/" + b;
      assert ("/" + b)[1..] == b;
    } else {
      assert (a + "/" + b)[0] == a[0];
      assert (a + "/" + b)[1..] == a[1..] + "/" + b;
      SplitSlashJoin(a[1..], b);
      if a[0] == '/' {
      } else {
        var ra := SplitSlash(a[1..]);
        assert (ra + SplitSlash(b))[0] == ra[0];
        assert (ra + SplitSlash(b))[1..] == ra[1..] + SplitSlash(b);
      }
    }
  }

  /** `.name` is the last component of `p.split('/')` that is neither empty nor ".". */
  lemma {:induction false} PathNameIsLastNamedComponent(p: string)
    ensures PathName(p) == LastNamed(SplitSlash(p))
    decreases |p|
  {
    var cut := RFind(p, '/');
    if cut < 0 {
      assert '/' !in p;
      SplitSlashFree(p);
      assert SplitSlash(p)[..0] == [];
    } else {
      var head := p[..cut];
      var last := p[cut + 1..];
      assert p == head + "/" + last;
      assert '/' !in last by {
        forall k | 0 <= k < |last| ensures last[k] != '/' { assert last[k] == p[cut + 1 + k]; }
      }
      SplitSlashJoin(head, last);
      SplitSlashFree(last);
      var cs := SplitSlash(head) + [last];
      assert cs[..|cs| - 1] == SplitSlash(head);
      PathNameIsLastNamedComponent(head);
    }
  }

  /** The name an uploaded dataset is stored under has no forward slash, so only a
      backslash can trip the slash check applied to it. */
  lemma UploadStemHasNoForwardSlash(filename: string)
    ensures '/' !in Stem(PathName(filename))
  {
    var n := PathName(filename);
    var st := Stem(n);
    assert st + Suffix(n) == n;
    forall k | 0 <= k < |st|
      ensures st[k] != '/'
    {
      assert st[k] == n[k];
    }
  }

  /** Python's `s.lstrip('.')`. */
  function LStripDots(s: string): (r: string)
    ensures r == "" || r[0] != '.'
    ensures |r| <= |s| && r == s[|s| - |r|..]
    ensures forall k :: 0 <= k < |s| - |r| ==> s[k] == '.'
  {
    if |s| > 0 && s[0] == '.' then LStripDots(s[1..]) else s
  }

  /** One leading dot followed by a non-dot: `lstrip('.')` drops exactly that dot. */
  lemma LStripOneDot(s: string)
    requires |s| > 1 && s[0] == '.' && s[1] != '.'
    ensures LStripDots(s) == s[1..]
  {
    assert s[1..][0] != '.';
    assert LStripDots(s[1..]) == s[1..];
  }
}

=== FILE: jobs.dfy ===
/** The in-memory job store and the three job endpoints: status, result, and saving the
    results to a file. */
module Jobs {
  import opened Outcomes
  import opened Values
  import opened Errors
  import opened FileKeys

  datatype Status = Running | Completed | Failed

  /** One row of a job's results: the record it ran on, and either the run's output or
      the text of the exception it raised. */
  datatype Entry =
    | Succeeded(input: Value, raw: string, parsed: Value)
    | Errored(input: Value, message: string)

  datatype Job = Job(status: Status, progress: nat, total: nat, results: seq<Entry>, error: Option<string>)

  type JobStore = map<string, Job>

  /** What every job the orchestrator writes satisfies once its progress is updated. */
  predicate Consistent(job: Job) {
    && job.progress <= job.total
    && |job.results| == job.progress
    && (job.status == Completed ==> job.progress == job.total && job.error.None?)
    && (job.status == Failed ==> job.error.Some?)
  }

  datatype JobStatus = JobStatus(status: Status, progress: nat, total: nat, error: Option<string>)

  const JobNotFound: HttpError := HttpError(404, "Job not found")
  const JobNotComplete: HttpError := HttpError(400, "Job is not yet complete.")
  const FilenameSlash: HttpError := HttpError(400, "Filename cannot contain slashes.")
  const ResultFileExists: HttpError := HttpError(409, "A file with that name already exists.")

  /** `get_job_status`. */
  function GetJobStatus(store: JobStore, id: string): (r: Result<JobStatus, HttpError>)
    ensures r.Err? <==> id !in store
    ensures r.Err? ==> r.error == JobNotFound
    ensures r.Ok? ==> && r.value.status == store[id].status
                      && r.value.progress == store[id].progress
                      && r.value.total == store[id].total
                      && r.value.error == store[id].error
  {
    if id !in store then Err(JobNotFound)
    else
      var job := store[id];
      Ok(JobStatus(job.status, job.progress, job.total, job.error))
  }

  /** `get_job_result`: results only of a completed job. */
  function GetJobResult(store: JobStore, id: string): (r: Result<seq<Entry>, HttpError>)
    ensures r.Ok? <==> id in store && store[id].status == Completed
    ensures r.Ok? ==> r.value == store[id].results
    ensures id !in store ==> r == Err(JobNotFound)
    ensures id in store && store[id].status != Completed ==> r == Err(JobNotComplete)
  {
    if id !in store then Err(JobNotFound)
    else if store[id].status != Completed then Err(JobNotComplete)
    else Ok(store[id].results)
  }

  const ResultsDir: string := "template-explorer/storage/results"

  datatype SaveRequest = SaveRequest(jobId: string, filename: string)

  /** The file `save_job_results` writes: its path and the entries, one JSON line each. */
  datatype Saved = Saved(path: string, lines: seq<Entry>)

  function ResultFileName(filename: string): string {
    filename + ".jsonl"
  }

  /** `save_job_results`; `existing` holds the names already present in the results
      directory. */
  function SaveJobResults(store: JobStore, req: SaveRequest, existing: set<string>): (r: Result<Saved, HttpError>)
    ensures r.Ok? <==> && req.jobId in store
                       && store[req.jobId].status == Completed
                       && !HasSlash(req.filename)
                       && ResultFileName(req.filename) !in existing
    ensures r.Ok? ==> r.value.lines == store[req.jobId].results
    ensures r.Ok? ==> r.value.path == ResultsDir + "/" + ResultFileName(req.filename)
    ensures r.Err? ==> r.error.code in {400, 404, 409}
    // the checks in order: the job, its status, the file name, then the target file
    ensures req.jobId !in store ==> r == Err(JobNotFound)
    ensures req.jobId in store && store[req.jobId].status != Completed ==> r == Err(JobNotComplete)
    ensures req.jobId in store && store[req.jobId].status == Completed ==>
              && (HasSlash(req.filename) ==> r == Err(FilenameSlash))
              && (!HasSlash(req.filename) && ResultFileName(req.filename) in existing ==> r == Err(ResultFileExists))
  {
    if req.jobId !in store then Err(JobNotFound)
    else if store[req.jobId].status != Completed then Err(JobNotComplete)
    else if HasSlash(req.filename) then Err(FilenameSlash)
    else if ResultFileName(req.filename) in existing then Err(ResultFileExists)
    else Ok(Saved(ResultsDir + "/" + ResultFileName(req.filename), store[req.jobId].results))
  }

  /** Saving writes what the result endpoint serves, and is refused with the same error
      whenever that endpoint refuses. */
  lemma SaveAgreesWithResult(store: JobStore, req: SaveRequest, existing: set<string>)
    ensures SaveJobResults(store, req, existing).Ok? ==>
              GetJobResult(store, req.jobId) == Ok(SaveJobResults(store, req, existing).value.lines)
    ensures GetJobResult(store, req.jobId).Err? ==>
              SaveJobResults(store, req, existing) == Err(GetJobResult(store, req.jobId).error)
  {
  }

  /** The saved file lands directly inside the results directory: its name is a single
      path component. */
  lemma SavedFileStaysInResultsDir(store: JobStore, req: SaveRequest, existing: set<string>)
    requires SaveJobResults(store, req, existing).Ok?
    ensures !HasSlash(ResultFileName(req.filename))
  {
    var n := ResultFileName(req.filename);
    forall k | 0 <= k < |n|
      ensures n[k] != '/' && n[k] != '\\'
    {
      if k < |req.filename| {
        assert n[k] == req.filename[k];
      }
    }
  }
}

=== FILE: outcomes.dfy ===
/** Option and Result: the model's stand-ins for Python's `None` and for raised exceptions.
    Both are failure-compatible, so `:-` propagates an error the way `raise` unwinds. */
module Outcomes {

  datatype Option<+T> = None | Some(value: T) {

    /** The wrapped value, or `default` when absent (Python's `x or default` on an optional). */
    function GetOr(default: T): T {
      match this
      case Some(v) => v
      case None => default
    }
  }

  datatype Result<+T, +E> = Ok(value: T) | Err(error: E) {

    predicate IsFailure() {
      Err?
    }

    function PropagateFailure<U>(): Result<U, E>
      requires Err?
    {
      Err(error)
    }

    function Extract(): T
      requires Ok?
    {
      value
    }
  }
}

=== FILE: parsing.dfy ===
/** Choosing and running the response parser (step 4 of `execute_llm_run`), with the
    error wrapping of `create_model_from_string` and `execute_custom_python`, and the
    final `.model_dump()` that packages the parsed value. */
module Parsing {
  import opened Outcomes
  import opened Values
  import opened Errors
  import opened Collaborators
  import opened FileKeys

  datatype ParserType = RawType | StructuredType | PythonType

  datatype ParserSpec = ParserSpec(kind: ParserType, pydanticModel: Option<string>, pythonCode: Option<string>)

  /** `ParserSpec()`: raw, no payloads. */
  const DefaultParser: ParserSpec := ParserSpec(RawType, None, None)

  /** The branch of the dispatch a request takes. */
  datatype Strategy = RawText | StructuredModel(modelCode: string) | CustomPython(code: string)

  /** A payload counts only when it is a non-empty string. */
  predicate Given(payload: Option<string>) {
    payload.Some? && payload.value != ""
  }

  /** `request.parser or ParserSpec()`, then the three-way dispatch. */
  function SelectStrategy(parser: Option<ParserSpec>): (r: Strategy)
    ensures r.StructuredModel? <==> parser.Some? && parser.value.kind == StructuredType && Given(parser.value.pydanticModel)
    ensures r.CustomPython? <==> parser.Some? && parser.value.kind == PythonType && Given(parser.value.pythonCode)
    ensures r.StructuredModel? ==> r.modelCode == parser.value.pydanticModel.value
    ensures r.CustomPython? ==> r.code == parser.value.pythonCode.value
  {
    var spec := parser.GetOr(DefaultParser);
    if spec.kind == StructuredType && Given(spec.pydanticModel) then StructuredModel(spec.pydanticModel.value)
    else if spec.kind == PythonType && Given(spec.pythonCode) then CustomPython(spec.pythonCode.value)
    else RawText
  }

  /** Each type looks only at its own payload: the other payload never changes the
      branch, and a missing parser behaves as the default raw one. */
  lemma StrategyIgnoresForeignPayload(kind: ParserType, m1: Option<string>, m2: Option<string>, c1: Option<string>, c2: Option<string>)
    ensures kind == StructuredType ==> SelectStrategy(Some(ParserSpec(kind, m1, c1))) == SelectStrategy(Some(ParserSpec(kind, m1, c2)))
    ensures kind == PythonType ==> SelectStrategy(Some(ParserSpec(kind, m1, c1))) == SelectStrategy(Some(ParserSpec(kind, m2, c1)))
    ensures kind == RawType ==> SelectStrategy(Some(ParserSpec(kind, m1, c1))) == RawText
    ensures SelectStrategy(None) == SelectStrategy(Some(DefaultParser)) == RawText
  {
  }

  /** The class `create_model_from_string` accepts: a BaseModel subclass other than
      BaseModel itself, under a name not starting with an underscore. */
  predicate EligibleModel(entry: (string, LocalBinding)) {
    entry.1.ModelClassDef? && !(|entry.0| > 0 && entry.0[0] == '_')
  }

  /** The first eligible class in definition order. */
  function FirstModelClass(locals: seq<(string, LocalBinding)>): (r: Option<string>)
    ensures r.None? <==> forall i :: 0 <= i < |locals| ==> !EligibleModel(locals[i])
    ensures r.Some? ==> exists i :: 0 <= i < |locals| && EligibleModel(locals[i]) && locals[i].1.handle == r.value
                                  && forall j :: 0 <= j < i ==> !EligibleModel(locals[j])
  {
    if |locals| == 0 then None
    else if EligibleModel(locals[0]) then Some(locals[0].1.handle)
    else
      var r := FirstModelClass(locals[1..]);
      assert forall i :: 1 <= i < |locals| ==> locals[i] == locals[1..][i - 1];
      if r.Some? then
        var i :| 0 <= i < |locals| - 1 && EligibleModel(locals[1..][i]) && locals[1..][i].1.handle == r.value
                 && forall j :: 0 <= j < i ==> !EligibleModel(locals[1..][j]);
        assert EligibleModel(locals[i + 1]) && forall j :: 0 <= j < i + 1 ==> !EligibleModel(locals[j]);
        r
      else r
  }

  /** `create_model_from_string`. */
  function CreateModelFromString(code: string, ext: Externals): (r: Result<string, ModelError>)
    ensures ext.exec(code).Raised? ==> r == Err(InvalidModelDefinition(ext.exec(code).message))
    ensures ext.exec(code).Executed? ==> (r.Ok? <==> exists i :: 0 <= i < |ext.exec(code).locals| && EligibleModel(ext.exec(code).locals[i]))
    ensures r.Ok? ==> ext.exec(code).Executed? && FirstModelClass(ext.exec(code).locals) == Some(r.value)
    ensures r.Err? ==> r.error.InvalidModelDefinition? || r.error.NoModelClass?
    ensures ext.exec(code).Executed? && r.Err? ==> r == Err(NoModelClass)
  {
    match ext.exec(code)
    case Raised(m) => Err(InvalidModelDefinition(m))
    case Executed(locals) =>
      match FirstModelClass(locals)
      case None => Err(NoModelClass)
      case Some(cls) => Ok(cls)
  }

  /** `callable(...)`: functions and classes can be called, other values cannot. */
  predicate Callable(b: LocalBinding) {
    !b.OtherValue?
  }

  /** `local_scope.get(name)`. */
  function Lookup(locals: seq<(string, LocalBinding)>, name: string): (r: Option<LocalBinding>)
    ensures r.None? <==> forall i :: 0 <= i < |locals| ==> locals[i].0 != name
    ensures r.Some? ==> exists i :: 0 <= i < |locals| && locals[i] == (name, r.value)
  {
    if |locals| == 0 then None
    else if locals[0].0 == name then Some(locals[0].1)
    else
      var r := Lookup(locals[1..], name);
      assert forall i :: 1 <= i < |locals| ==> locals[i] == locals[1..][i - 1];
      if r.Some? then
        var i :| 0 <= i < |locals| - 1 && locals[1..][i] == (name, r.value);
        assert locals[i + 1] == (name, r.value);
        r
      else r
  }

  /** `execute_custom_python`: define, find a callable `parse`, call it on the text. */
  function ExecuteCustomPython(code: string, input: string, ext: Externals): (r: Result<PyObject, CustomError>)
    ensures ext.exec(code).Raised? ==> r == Err(InvalidParserCode(ext.exec(code).message))
    ensures r == Err(ParseFunctionMissing) <==>
              ext.exec(code).Executed? && !(Lookup(ext.exec(code).locals, "parse").Some? && Callable(Lookup(ext.exec(code).locals, "parse").value))
    ensures r.Ok? ==> ext.callParse(code, input) == Ok(r.value)
    ensures ext.exec(code).Executed? && Lookup(ext.exec(code).locals, "parse").Some?
            && Callable(Lookup(ext.exec(code).locals, "parse").value) ==>
              && (ext.callParse(code, input).Ok? ==> r == Ok(ext.callParse(code, input).value))
              && (ext.callParse(code, input).Err? ==> r == Err(ParseFunctionRaised(ext.callParse(code, input).error)))
  {
    match ext.exec(code)
    case Raised(m) => Err(InvalidParserCode(m))
    case Executed(locals) =>
      var parse := Lookup(locals, "parse");
      if !(parse.Some? && Callable(parse.value)) then Err(ParseFunctionMissing)
      else
        match ext.callParse(code, input)
        case Err(m) => Err(ParseFunctionRaised(m))
        case Ok(v) => Ok(v)
  }

  /** The raw response and the parsed object before packaging. */
  datatype Parsed = Parsed(raw: string, obj: PyObject)

  /** Invoking the model and parsing its answer on the chosen branch. Structured parsing
      calls the model inside its `try`, so every failure of that branch, the model's
      included, is wrapped; the other branches call the model outside any `try`. */
  function InvokeAndParse(strategy: Strategy, prompt: string, llm: LlmConfig, ext: Externals): (r: Result<Parsed, RunError>)
    // raw: the model's text, parsed as itself
    ensures strategy.RawText? ==> (r.Ok? <==> ext.complete(prompt, llm).Ok?)
    ensures strategy.RawText? && r.Ok? ==>
              ext.complete(prompt, llm) == Ok(r.value.raw) && r.value.obj == PlainObject(VStr(r.value.raw))
    ensures strategy.RawText? && ext.complete(prompt, llm).Err? ==> r == Err(CompletionFailed(ext.complete(prompt, llm).error))
    // structured: the first model class, then the model's instance of it
    ensures strategy.StructuredModel? ==>
              (r.Ok? <==> && CreateModelFromString(strategy.modelCode, ext).Ok?
                          && ext.predict(CreateModelFromString(strategy.modelCode, ext).value, prompt, llm).Ok?)
    ensures strategy.StructuredModel? && r.Ok? ==>
              && r.value.obj.ModelObject? && r.value.raw == r.value.obj.instance.repr
              && ext.predict(CreateModelFromString(strategy.modelCode, ext).value, prompt, llm) == Ok(r.value.obj.instance)
    ensures strategy.StructuredModel? && r.Err? ==> r.error.StructuredParsingFailed?
    ensures strategy.StructuredModel? && CreateModelFromString(strategy.modelCode, ext).Err? ==>
              r == Err(StructuredParsingFailed(CreateModelFromString(strategy.modelCode, ext).error))
    ensures strategy.StructuredModel? && CreateModelFromString(strategy.modelCode, ext).Ok?
            && ext.predict(CreateModelFromString(strategy.modelCode, ext).value, prompt, llm).Err? ==>
              r == Err(StructuredParsingFailed(PredictionFailed(
                     ext.predict(CreateModelFromString(strategy.modelCode, ext).value, prompt, llm).error)))
    // python: the model's text, then the user's `parse` of it
    ensures strategy.CustomPython? ==>
              (r.Ok? <==> && ext.complete(prompt, llm).Ok?
                          && ExecuteCustomPython(strategy.code, ext.complete(prompt, llm).value, ext).Ok?)
    ensures strategy.CustomPython? && r.Ok? ==>
              && ext.complete(prompt, llm) == Ok(r.value.raw)
              && ExecuteCustomPython(strategy.code, r.value.raw, ext) == Ok(r.value.obj)
    ensures strategy.CustomPython? && r.Err? ==> r.error.CompletionFailed? || r.error.CustomParsingFailed?
    // `llm.complete` runs outside the `try`, so its failure is not wrapped
    ensures strategy.CustomPython? && ext.complete(prompt, llm).Err? ==> r == Err(CompletionFailed(ext.complete(prompt, llm).error))
    ensures strategy.CustomPython? && ext.complete(prompt, llm).Ok?
            && ExecuteCustomPython(strategy.code, ext.complete(prompt, llm).value, ext).Err? ==>
              r == Err(CustomParsingFailed(ExecuteCustomPython(strategy.code, ext.complete(prompt, llm).value, ext).error))
  {
    match strategy
    case StructuredModel(code) =>
      (match CreateModelFromString(code, ext)
       case Err(e) => Err(StructuredParsingFailed(e))
       case Ok(cls) =>
         match ext.predict(cls, prompt, llm)
         case Err(m) => Err(StructuredParsingFailed(PredictionFailed(m)))
         case Ok(inst) => Ok(Parsed(inst.repr, ModelObject(inst))))
    case CustomPython(code) =>
      (match ext.complete(prompt, llm)
       case Err(m) => Err(CompletionFailed(m))
       case Ok(raw) =>
         match ExecuteCustomPython(code, raw, ext)
         case Err(e) => Err(CustomParsingFailed(e))
         case Ok(obj) => Ok(Parsed(raw, obj)))
    case RawText =>
      match ext.complete(prompt, llm)
      case Err(m) => Err(CompletionFailed(m))
      case Ok(raw) => Ok(Parsed(raw, PlainObject(VStr(raw))))
  }

  /** Every failure of the structured branch, and every failure of user parser code,
      reaches the caller with its branch's prefix in front of the inner message. */
  lemma WrappedFailuresArePrefixed(strategy: Strategy, prompt: string, llm: LlmConfig, ext: Externals)
    ensures var r := InvokeAndParse(strategy, prompt, llm, ext);
            strategy.StructuredModel? && r.Err? ==> StartsWith(Message(r.error), StructuredPrefix)
    ensures var r := InvokeAndParse(strategy, prompt, llm, ext);
            r.Err? && r.error.CustomParsingFailed? ==> StartsWith(Message(r.error), CustomPrefix)
  {
    var r := InvokeAndParse(strategy, prompt, llm, ext);
    if r.Err? && r.error.StructuredParsingFailed? {
      StructuredMessagePrefixed(r.error.model);
    }
    if r.Err? && r.error.CustomParsingFailed? {
      CustomMessagePrefixed(r.error.custom);
    }
  }

  lemma StructuredMessagePrefixed(m: ModelError)
    ensures StartsWith(Message(StructuredParsingFailed(m)), StructuredPrefix)
  {
    var rest := ModelErrorText(m);
    assert Message(StructuredParsingFailed(m)) == StructuredPrefix + rest;
    PrefixStartsConcat(StructuredPrefix, rest);
  }

  lemma CustomMessagePrefixed(c: CustomError)
    ensures StartsWith(Message(CustomParsingFailed(c)), CustomPrefix)
  {
    var rest := CustomErrorText(c);
    assert Message(CustomParsingFailed(c)) == CustomPrefix + rest;
    PrefixStartsConcat(CustomPrefix, rest);
  }

  /** User code that runs but defines no callable `parse` fails the python branch with the
      dedicated message, once the model has answered. */
  lemma MissingParseFunction(code: string, prompt: string, llm: LlmConfig, ext: Externals)
    requires ext.complete(prompt, llm).Ok?
    requires ext.exec(code).Executed?
    requires forall i :: 0 <= i < |ext.exec(code).locals| ==> ext.exec(code).locals[i].0 != "parse"
    ensures InvokeAndParse(CustomPython(code), prompt, llm, ext) == Err(CustomParsingFailed(ParseFunctionMissing))
    ensures Message(InvokeAndParse(CustomPython(code), prompt, llm, ext).error)
         == CustomPrefix + "A 'parse' function was not found in the provided code."
  {
  }

  /** What the endpoint returns for a run: the raw text and `model_dump()` of the parsed
      object. */
  datatype RunOutput = RunOutput(raw: string, parsed: Value)

  /** `{"raw_response": raw, "parsed_response": parsed.model_dump()}`: only a pydantic
      instance has `model_dump`; any other parsed value raises AttributeError. */
  function Package(p: Parsed): (r: Result<RunOutput, RunError>)
    ensures r.Ok? <==> p.obj.ModelObject?
    ensures r.Ok? ==> r.value.raw == p.raw && r.value.parsed == VDict(p.obj.instance.fields)
    ensures r.Err? ==> r.error == NoModelDump(TypeName(p.obj.value))
  {
    match p.obj
    case ModelObject(inst) => Ok(RunOutput(p.raw, VDict(inst.fields)))
    case PlainObject(v) => Err(NoModelDump(TypeName(v)))
  }

  /** The raw branch parses to the response text itself, which has no `model_dump`: a
      raw run never packages. */
  lemma RawNeverPackages(prompt: string, llm: LlmConfig, ext: Externals)
    ensures var r := InvokeAndParse(RawText, prompt, llm, ext);
            r.Ok? ==> Package(r.value) == Err(NoModelDump("str"))
  {
  }
}

=== FILE: runner.dfy ===
/** `execute_llm_run`: template source, context, rendering, model call, parsing and
    packaging, with the first failing step deciding the error. */
module Runner {
  import opened Outcomes
  import opened Values
  import opened Errors
  import opened Collaborators
  import opened Storage
  import opened Context
  import opened Parsing

  datatype RunRequest = RunRequest(
    templateId: Option<string>,
    templateText: Option<string>,
    bindings: seq<Binding>,
    parser: Option<ParserSpec>,
    llm: Option<LlmConfig>)

  /** The two stores the run reads. */
  datatype Files = Files(templates: Directory, datasets: Directory)

  /** Step 1: a non-empty template id wins and must name a stored template; otherwise
      the inline text, defaulting to the empty template. */
  function TemplateSource(req: RunRequest, templates: Directory): (r: Result<string, RunError>)
    ensures Given(req.templateId) ==> (r.Ok? <==> FindFile(templates, req.templateId.value).Some?)
    ensures Given(req.templateId) && r.Ok? ==> r.value == FindFile(templates, req.templateId.value).value.text
    ensures r.Err? ==> r.error == TemplateNotFound && Given(req.templateId)
    ensures !Given(req.templateId) ==> r == Ok(req.templateText.GetOr(""))
  {
    if Given(req.templateId) then
      match FindFile(templates, req.templateId.value)
      case None => Err(TemplateNotFound)
      case Some(f) => Ok(f.text)
    else Ok(req.templateText.GetOr(""))
  }

  function Render(template: string, ctx: Ctx, ext: Externals): Result<string, RunError> {
    match ext.render(template, ctx)
    case Err(m) => Err(RenderFailed(m))
    case Ok(prompt) => Ok(prompt)
  }

  /** `request.llm`, read as `request.llm.model` when the model client is built. */
  function LlmOf(req: RunRequest): Result<LlmConfig, RunError> {
    match req.llm
    case None => Err(MissingLlmConfig)
    case Some(c) => Ok(c)
  }

  /** One run over the given record (`None` for a single run from the UI). */
  function ExecuteRun(req: RunRequest, record: Option<Value>, files: Files, ext: Externals): (r: Result<RunOutput, RunError>)
    ensures TemplateSource(req, files.templates).Err? ==> r == Err(TemplateNotFound)
    ensures TemplateSource(req, files.templates).Ok? && BuildContext(req.bindings, record, files.datasets, ext).Err? ==>
              r == Err(BuildContext(req.bindings, record, files.datasets, ext).error)
    ensures TemplateSource(req, files.templates).Ok? && BuildContext(req.bindings, record, files.datasets, ext).Ok? ==>
              r == RunInContext(req, TemplateSource(req, files.templates).value,
                                BuildContext(req.bindings, record, files.datasets, ext).value, ext)
    ensures r.Ok? <==> && TemplateSource(req, files.templates).Ok?
                       && BuildContext(req.bindings, record, files.datasets, ext).Ok?
                       && RunInContext(req, TemplateSource(req, files.templates).value,
                                       BuildContext(req.bindings, record, files.datasets, ext).value, ext).Ok?
    ensures r.Ok? ==> !SelectStrategy(req.parser).RawText?
    ensures r.Ok? ==> r.value.parsed.VDict? && req.llm.Some?
  {
    var template :- TemplateSource(req, files.templates);
    var ctx :- BuildContext(req.bindings, record, files.datasets, ext);
    RunInContext(req, template, ctx, ext)
  }

  /** Steps 3 and 4: render, call the model, parse, package. */
  function RunInContext(req: RunRequest, template: string, ctx: Ctx, ext: Externals): (r: Result<RunOutput, RunError>)
    // the first failing step decides the error
    ensures ext.render(template, ctx).Err? ==> r == Err(RenderFailed(ext.render(template, ctx).error))
    ensures ext.render(template, ctx).Ok? && req.llm.None? ==> r == Err(MissingLlmConfig)
    ensures ext.render(template, ctx).Ok? && req.llm.Some? ==>
              var p := InvokeAndParse(SelectStrategy(req.parser), ext.render(template, ctx).value, req.llm.value, ext);
              && (p.Err? ==> r == Err(p.error))
              && (p.Ok? ==> r == Package(p.value))
    // success: every step succeeded and the parsed object is a model instance, whose
    // fields are the parsed response and whose raw text is the model's answer
    ensures r.Ok? <==> && ext.render(template, ctx).Ok? && req.llm.Some?
                       && var p := InvokeAndParse(SelectStrategy(req.parser), ext.render(template, ctx).value, req.llm.value, ext);
                          p.Ok? && p.value.obj.ModelObject?
    ensures r.Ok? ==>
              var p := InvokeAndParse(SelectStrategy(req.parser), ext.render(template, ctx).value, req.llm.value, ext);
              r.value == RunOutput(p.value.raw, VDict(p.value.obj.instance.fields))
    ensures r.Ok? ==> !SelectStrategy(req.parser).RawText?
    ensures r.Ok? ==> r.value.parsed.VDict? && req.llm.Some?
  {
    var prompt :- Render(template, ctx, ext);
    var llm :- LlmOf(req);
    var parsed :- InvokeAndParse(SelectStrategy(req.parser), prompt, llm, ext);
    Package(parsed)
  }

  /** A run over a falsy record (`{}`, `""`, `0`, `null`) is the run over no record: every
      record binding falls back to its own dataset. */
  lemma FalsyRecordRunsAsSingle(req: RunRequest, v: Value, files: Files, ext: Externals)
    requires !Truthy(v)
    ensures ExecuteRun(req, Some(v), files, ext) == ExecuteRun(req, None, files, ext)
  {
    FoldIgnoresFalsyRecord(req.bindings, Initial, Some(v), None, files.datasets, ext);
    assert BuildContext(req.bindings, Some(v), files.datasets, ext) == BuildContext(req.bindings, None, files.datasets, ext);
  }

  /** With only global bindings the record passed in does not matter. */
  lemma GlobalOnlyRunIgnoresRecord(req: RunRequest, r1: Option<Value>, r2: Option<Value>, files: Files, ext: Externals)
    requires forall i :: 0 <= i < |req.bindings| ==> req.bindings[i].scope == GlobalScope
    ensures ExecuteRun(req, r1, files, ext) == ExecuteRun(req, r2, files, ext)
  {
    FoldIgnoresRecordWhenAllGlobal(req.bindings, Initial, r1, r2, files.datasets, ext);
    assert BuildContext(req.bindings, r1, files.datasets, ext) == BuildContext(req.bindings, r2, files.datasets, ext);
  }

  /** A run that gets as far as the raw parser always ends in the attribute error of
      `.model_dump()` on a string. */
  lemma RawRunFailsAtPackaging(req: RunRequest, template: string, ctx: Ctx, ext: Externals)
    requires SelectStrategy(req.parser).RawText? && req.llm.Some?
    requires Render(template, ctx, ext).Ok?
    requires ext.complete(Render(template, ctx, ext).value, req.llm.value).Ok?
    ensures RunInContext(req, template, ctx, ext) == Err(NoModelDump("str"))
  {
  }
}

=== FILE: storage.dfy ===
/** The file store behind templates and datasets: a directory is the list of its entries in
    iteration order, a file is found by the id prefix of its stem, and a dataset file is
    loaded into a list of records according to its suffix. */
module Storage {
  import opened Outcomes
  import opened Values
  import opened FileKeys
  import opened Errors
  import opened Collaborators

  datatype FileEntry = FileEntry(name: string, isFile: bool, text: string)

  type Directory = seq<FileEntry>

  /** The test `f.is_file() and f.stem.startswith(f"{id}__")`. */
  predicate HasId(f: FileEntry, id: string) {
    f.isFile && StartsWith(Stem(f.name), id + Separator)
  }

  /** The first position at or after `i` whose entry satisfies `hit`. */
  function FindFrom(dir: Directory, hit: FileEntry -> bool, i: nat): (r: Option<nat>)
    requires i <= |dir|
    ensures r.Some? ==> i <= r.value < |dir| && hit(dir[r.value])
    ensures r.Some? ==> forall j :: i <= j < r.value ==> !hit(dir[j])
    ensures r.None? ==> forall j :: i <= j < |dir| ==> !hit(dir[j])
    decreases |dir| - i
  {
    if i == |dir| then None
    else if hit(dir[i]) then Some(i)
    else FindFrom(dir, hit, i + 1)
  }

  /** Position of the entry `_find_template_file` / `_find_dataset_file` return: the first
      file, in iteration order, whose stem starts with the id and the separator. */
  function FindIndex(dir: Directory, id: string): (r: Option<nat>)
    ensures r.Some? ==> r.value < |dir| && HasId(dir[r.value], id)
    ensures r.Some? ==> forall j :: 0 <= j < r.value ==> !HasId(dir[j], id)
    ensures r.None? <==> forall j :: 0 <= j < |dir| ==> !HasId(dir[j], id)
  {
    FindFrom(dir, f => HasId(f, id), 0)
  }

  /** `_find_template_file` / `_find_dataset_file`: the first matching entry in iteration
      order. */
  function FindFile(dir: Directory, id: string): (r: Option<FileEntry>)
    ensures r.Some? ==> r.value in dir && HasId(r.value, id)
    ensures r.None? <==> forall f :: f in dir ==> !HasId(f, id)
  {
    match FindIndex(dir, id)
    case None => None
    case Some(i) => Some(dir[i])
  }

  /** The entry found is the first match: a matching entry with no match before it is
      exactly what the lookup returns. */
  lemma FindFileIsFirstMatch(dir: Directory, id: string, i: nat)
    requires i < |dir| && HasId(dir[i], id)
    requires forall j :: 0 <= j < i ==> !HasId(dir[j], id)
    ensures FindFile(dir, id) == Some(dir[i])
  {
    assert FindIndex(dir, id) == Some(i);
  }

  /** A file written under an id without underscores is found by that id, provided no
      earlier entry claims the same prefix. */
  lemma FindWrittenFile(dir: Directory, id: string, name: string, ext: string, text: string)
    requires |ext| > 0 && '.' !in ext
    requires forall f :: f in dir ==> !HasId(f, id)
    ensures FindFile(dir + [FileEntry(FileName(id, name, "." + ext), true, text)], id)
         == Some(FileEntry(FileName(id, name, "." + ext), true, text))
  {
    var f := FileEntry(FileName(id, name, "." + ext), true, text);
    var d := dir + [f];
    KeyOfFileName(id, name, ext);
    assert (id + Separator + name)[..|id + Separator|] == id + Separator;
    assert HasId(d[|dir|], id);
    forall j | 0 <= j < |dir|
      ensures !HasId(d[j], id)
    {
      assert d[j] in dir;
    }
    var r := FindIndex(d, id);
    assert r.Some?;
    assert r.value == |dir|;
  }

  /** The prefix lookup does not look at where the id ends: a file whose display name
      starts with "b__" is found both under its own id "a" and under the id "a__b". */
  lemma PrefixLookupIsNotExact()
    ensures HasId(FileEntry("a__b__c.json", true, ""), "a")
    ensures HasId(FileEntry("a__b__c.json", true, ""), "a__b")
  {
    var stem := "a__b__c";
    assert "a__b__c.json" == stem + "." + "json";
    StemSuffixOfFileName(stem, "json");
    assert stem[..3] == "a" + Separator;
    assert stem[..6] == "a__b" + Separator;
  }

  const UnsupportedFormat: HttpError := HttpError(400, "Unsupported file format for record retrieval.")

  function UnreadableDataset(cause: string): HttpError {
    HttpError(500, "Error reading or parsing dataset file: " + cause)
  }

  /** The records of a decoded `.json` document: a list is taken as is, an object is one
      record, anything else gives no records. */
  function JsonRecords(doc: Value): (r: seq<Value>)
    ensures doc.VList? ==> r == doc.items
    ensures !doc.VList? ==> |r| <= 1 && (|r| == 1 <==> doc.VDict?)
    ensures !doc.VList? ==> forall v :: v in r ==> v == doc
  {
    match doc
    case VList(items) => items
    case VDict(_) => [doc]
    case _ => []
  }

  /** `_load_dataset_file`: records of a dataset file, chosen by suffix. */
  function LoadDataset(f: FileEntry, ext: Externals): (r: Result<seq<Value>, HttpError>)
    ensures r.Err? ==> r.error.code == 400 || r.error.code == 500
    ensures (r.Err? && r.error.code == 400) <==> Suffix(f.name) !in {".jsonl", ".json", ".txt"}
    ensures Suffix(f.name) == ".txt" ==> r == Ok([VStr(f.text)])
    ensures Suffix(f.name) == ".json" ==>
              (r.Ok? <==> ext.decodeJson(f.text).Ok?)
              && (r.Ok? ==> r.value == JsonRecords(ext.decodeJson(f.text).value))
    ensures Suffix(f.name) == ".jsonl" ==>
              (r.Ok? <==> ext.decodeJsonLines(f.text).Ok?)
              && (r.Ok? ==> r.value == ext.decodeJsonLines(f.text).value)
  {
    var suffix := Suffix(f.name);
    if suffix == ".jsonl" then
      match ext.decodeJsonLines(f.text)
      case Err(m) => Err(UnreadableDataset(m))
      case Ok(docs) => Ok(docs)
    else if suffix == ".json" then
      match ext.decodeJson(f.text)
      case Err(m) => Err(UnreadableDataset(m))
      case Ok(doc) => Ok(JsonRecords(doc))
    else if suffix == ".txt" then
      Ok([VStr(f.text)])
    else
      Err(UnsupportedFormat)
  }

  const DatasetMissing: HttpError := HttpError(404, "Dataset not found")
  const RecordMissing: HttpError := HttpError(404, "Record not found at that index.")

  /** `get_dataset_record`: one record by index, under the half-open bound [0, count). */
  function GetDatasetRecord(dir: Directory, id: string, index: int, ext: Externals): (r: Result<Value, HttpError>)
    ensures FindFile(dir, id).None? ==> r == Err(DatasetMissing)
    ensures r.Ok? ==>
              && FindFile(dir, id).Some?
              && LoadDataset(FindFile(dir, id).value, ext).Ok?
              && 0 <= index < |LoadDataset(FindFile(dir, id).value, ext).value|
              && r.value == LoadDataset(FindFile(dir, id).value, ext).value[index]
    ensures FindFile(dir, id).Some? && LoadDataset(FindFile(dir, id).value, ext).Ok? ==>
              (r.Ok? <==> 0 <= index < |LoadDataset(FindFile(dir, id).value, ext).value|)
  {
    match FindFile(dir, id)
    case None => Err(DatasetMissing)
    case Some(f) =>
      var data :- LoadDataset(f, ext);
      if 0 <= index < |data| then Ok(data[index]) else Err(RecordMissing)
  }
}

=== FILE: values.dfy ===
/** Decoded JSON values as the backend sees them after `json.load`: records, bound
    context values and parsed model output are all of this shape. */
module Values {

  datatype Value =
    | VNull
    | VBool(b: bool)
    | VInt(i: int)
    | VStr(s: string)
    | VList(items: seq<Value>)
    | VDict(fields: map<string, Value>)

  /** Python truthiness (`if record:`): None, False, 0 and empty containers are false. */
  predicate Truthy(v: Value) {
    match v
    case VNull => false
    case VBool(b) => b
    case VInt(i) => i != 0
    case VStr(s) => |s| > 0
    case VList(items) => |items| > 0
    case VDict(fields) => |fields| > 0
  }

  /** Python's `type(v).__name__`, used in attribute-error messages. */
  function TypeName(v: Value): string {
    match v
    case VNull => "NoneType"
    case VBool(_) => "bool"
    case VInt(_) => "int"
    case VStr(_) => "str"
    case VList(_) => "list"
    case VDict(_) => "dict"
  }
}
